=== FILE: README.md ===
# RelSync version inference, modelled in Dafny

RelSync is a release helper for a Helm "umbrella" repository. Each git submodule of the
repository carries a Helm chart, and the parent chart lists these charts as dependencies.
RelSync does four things:

- It reads the submodules and their tags from git.
- For each submodule it picks a suggested tag and reads the chart version at that tag.
- It classifies each submodule's version change as a major, minor or patch bump, and folds
  these into one bump for the parent chart.
- It suggests the next parent version, optionally as a pre-release train (`1.3.0-rc`,
  `1.3.0-rc.1`, ...). It then checks out the chosen tags and rewrites the parent chart's
  dependency versions.

This project models the decision logic of that helper as pure Dafny functions and proves what
it promises. Git, the file system, YAML/JSON parsing and the terminal are inputs to the model:

- command output is a `string`;
- chart files are a `map` from path to `Chart`;
- typed answers are a `seq<string>`.

Modules, in dependency order:

| module | file | models |
|---|---|---|
| `Wrappers` | `wrappers.dfy` | `Option`, `Result`, the errors the source raises or exits with, Python truthiness and `or` |
| `Decimal` | `decimal.dfy` | `str(n)` and `int(s)` on ASCII numerals |
| `Text` | `text.dfy` | `strip`, `split(sep)`, `split(None, 1)`, `'.'.join`, `splitlines`, substring `in` |
| `Dict` | `dict.dfy` | insertion-ordered Python dicts: assignment, lookup, dict union, a dict comprehension that may raise |
| `Bumps` | `bumps.dfy` | `bump_priority`, the max-severity fold, the level-to-name lookup |
| `SemVer` | `semver.dfy` | `semver_regex`, `parse_version`, `get_version_string`, `version_bump`, `bump_version` |
| `Charts` | `charts.dfy` | chart documents, chart files, `get_chart_version`, `os.path.join`, the `updates`/`parent_info` records |
| `Git` | `git.dfy` | `get_submodules`, `fetch_tags`, `get_latest_tag` on the git output |
| `Distribution` | `distribution.dfy` | `parse_chart_path_overrides`, `apply_distribution_updates` |
| `Helm` | `helm.dfy` | `compute_subchart_bumps_from_parent`, `get_current_status_from_parent_chart`, `bump_chart_version` |
| `Submodules` | `submodules.dfy` | `parse_tag_overrides`, `prompt`, and the answer-to-checkout decision of `apply_submodule_updates` |
| `Cli` | `cli.dfy` | the pure core of `fetch_updates`: per-submodule bump, fold, coarsening, suggested version, pre-release sequencer |

Some behaviour of the code is easy to misread:

- The recogniser's `$` also matches before one final `"\n"`, as Python's `re` does, so
  `"1.2.3\n"` is accepted. This is modelled rather than excluded.
- `version_bump` checks major, then minor, then patch, each on its own. A lower major with a
  higher minor still reads as "minor".
- The pre-release step compares plain `(major, minor, patch)` tuples, not full Semantic
  Versioning precedence. Its train test is a substring test.
- `fetch_updates` coarsens major to minor, and minor or patch to patch.
  `get_current_status_from_parent_chart` reports "patch" even when nothing was bumped, and
  then leaves the version unchanged.
- In `get_current_status_from_parent_chart` and `compute_subchart_bumps_from_parent`, a
  submodule without a chart-path override makes `os.path.join(path, None)` raise. This is
  modelled as the error `MissingChartPath`.
- In `fetch_updates`, the handler for a failing `git show` never runs. `run` with captured
  output ignores the exit status and returns the empty output, and `load_yaml_string` reads
  that as `{}`. So a chart git cannot show gives no suggested version and no bump, and the run
  goes on (`Cli.UnreadableChartNoBump`).

## Model

| member | source | states |
|---|---|---|
| `SemVer.MatchIffGrammar` | relsync/semver.py:7-14 | the recogniser accepts a string exactly when it is the text of a well-formed version, optionally followed by one newline. A well-formed version is an optional `v`, three numerals without leading zeros, optional dot-separated pre-release identifiers, and optional non-empty build identifiers. So `1.2` and `1.02.0` are rejected |
| `SemVer.MatchRender` | relsync/semver.py:7-14 | the text of every well-formed version, with or without a final newline, is recognised with exactly that version's groups |
| `SemVer.MatchIsWellFormed` | relsync/semver.py:7-14 | whatever the recogniser returns is a well-formed version |
| `SemVer.ParseVersion` | relsync/semver.py:24-32 | fails with the invalid-version error exactly when the recogniser rejects the string |
| `SemVer.ParseVersionGroup` | relsync/semver.py:24-48 | fails exactly when `ParseVersion` fails; without a group, the result is the `(major, minor, patch)` triple; the MAJOR, MINOR and PATCH groups are the matching numbers of that triple; the PRERELEASE and BUILD groups are labels |
| `SemVer.ParseVersionGroupRender` | relsync/semver.py:24-48 | on the text of a well-formed version, every group reads back the field it names: the three numbers, and the pre-release and build identifiers joined by dots, absent when the version has none |
| `SemVer.PrereleaseOf` | relsync/semver.py:43-44 | fails exactly when parsing fails; otherwise it is the `prerelease` group |
| `SemVer.ParseVersionIgnoresDecorations` | relsync/semver.py:30-32 | a rendered version parses to its own numbers, the same as its bare `M.m.p` text: the prefix, pre-release and build are ignored |
| `SemVer.MatchCoreString` | relsync/semver.py:50-52 | the text `M.m.p` is recognised as the clean version with those numbers |
| `SemVer.GetVersionString` | relsync/semver.py:50-52 | fails exactly when parsing fails; the result is recognised as the clean version with the input's numbers |
| `SemVer.GetVersionStringIdempotent` | relsync/semver.py:50-52 | normalising a normalised version changes nothing |
| `SemVer.Classify` | relsync/semver.py:60-66 | "major" iff the new major is larger; "minor" iff not and the new minor is larger, even when the major decreased; "patch" iff neither and the new patch is larger; otherwise no bump |
| `SemVer.VersionBump` | relsync/semver.py:55-66 | fails exactly when either version fails to parse, reporting the older one first; otherwise it is the classification of the two triples |
| `SemVer.VersionBumpSelf` | relsync/semver.py:55-66 | a version compared with itself is no bump |
| `SemVer.GreaterIsDetected` | relsync/semver.py:60-66 | every tuple increase is reported as some bump |
| `SemVer.DecreaseCanReadAsBump` | relsync/semver.py:60-63 | going from 2.0.0 to 1.5.0 reads as "minor" although the tuple decreased |
| `SemVer.Next` | relsync/semver.py:72-77 | the tuple after any bump is greater than the tuple before it |
| `SemVer.BumpVersion` | relsync/semver.py:69-78 | fails exactly when the input does not parse, whatever the bump. For "major", "minor" and "patch", the result is recognised as the clean next tuple: no prefix, pre-release or build. For any other value the input text is returned unchanged |
| `SemVer.NextTextMajor` | relsync/semver.py:73 | the f-string `(M+1).0.0` is the text of the next major version |
| `SemVer.NextTextMinor` | relsync/semver.py:75 | the f-string `M.(m+1).0` is the text of the next minor version |
| `SemVer.NextTextPatch` | relsync/semver.py:77 | the f-string `M.m.(p+1)` is the text of the next patch version |
| `SemVer.BumpRoundTrip` | relsync/semver.py:55-78 | for each bump b, `version_bump(v, bump_version(v, b)) == b` |
| `SemVer.PatchTwice` | relsync/semver.py:69-78 | two patch bumps raise the patch number by two and keep major and minor |
| `Bumps.Priority` | relsync/semver.py:5 | priorities are 1 to 3, with patch = 1 and major = 3 (so minor = 2) |
| `Bumps.FromName` | relsync/semver.py:5 | a label names at most one bump, and every bump's label names it |
| `Bumps.BumpOfLevel` | relsync/cli.py:85-89 | a bump is found exactly for levels 1 to 3; it is the only bump with that priority |
| `Bumps.MaxLevel` | relsync/cli.py:70-71 | the fold is at most 3, at least the level of every bump, and, when positive, the level of a bump that occurs |
| `Bumps.MaxLevelIsLevelOfSet` | relsync/cli.py:70-71 | the fold equals the reference maximum over the set of bumps that occur |
| `Bumps.MaxLevelPermutation` | relsync/cli.py:26-71 | the fold does not depend on the order of the submodules |
| `Bumps.Dominant` | relsync/cli.py:85-89 | there is no dominant bump iff no submodule was bumped; otherwise it is an occurring bump of maximal priority |
| `Cli.SuggestedTagLayers` | relsync/cli.py:29 | with the overrides of `parse_tag_overrides`, a submodule goes to the tag the argument names, else the tag the file names, else the latest tag |
| `Cli.SuggestedChart` | relsync/cli.py:40-56 | a chart is read exactly when the tag is non-empty and not "none"; it is the document shown at `tag:path`, or the empty document when git cannot show that object |
| `Cli.UnreadableChartNoBump` | relsync/cli.py:40-70 | a suggested tag at which the chart cannot be shown gives no suggested version and no bump, and the run goes on |
| `Cli.SubmoduleBump` | relsync/cli.py:64-69 | no bump without a suggested version; "major" with a suggested version but no current one; otherwise `version_bump(current, suggested)` |
| `Cli.SubmoduleBumpOfBumped` | relsync/cli.py:64-69 | a suggested chart one `bump_version` step ahead is reported with exactly that bump |
| `Cli.ObserveSubmodule` | relsync/cli.py:27-83 | the record of one submodule has its path, the recent, current, latest and suggested tags from `fetch_tags` and the overrides, and the current chart version of its chart path. With a usable suggested tag, the suggested version and chart name are those of the chart shown at `tag:path`; without one, both are absent. The bump is the per-submodule bump of the two versions, and the record fails exactly when that bump fails |
| `Cli.Coarsen` | relsync/cli.py:93-97 | "minor" iff the dominant bump is major; "patch" iff it is minor or patch; none iff nothing was bumped |
| `Cli.CoarsenMonotone` | relsync/cli.py:93-97 | coarsening keeps the order of levels, never raises a level and never yields "major" |
| `Cli.RepoSuggested` | relsync/cli.py:98-102 | fails exactly when the base version is missing or does not parse; with a parent bump, the result is the clean bumped base; without one, the clean base |
| `Cli.TrainCounter` | relsync/cli.py:109-112 | a positive counter comes only from a label of at least two dot-separated segments whose last one is all digits |
| `Cli.TrainCounterOfLabel` | relsync/cli.py:109-113 | the counter read back from a train label `ids.n` is `n` |
| `Cli.NextPrerelease` | relsync/cli.py:104-107 | fails exactly when a version is missing or does not parse; a suggested triple greater than the current one starts a new train `suggested-id` |
| `Cli.NewTrain` | relsync/cli.py:106-107 | on a newer clean suggested version, the result is the version with the single pre-release identifier `id` |
| `Cli.TrainStarts` | relsync/cli.py:108-113 | when the suggested triple is not newer, the current `M.m.p-id` continues as `M.m.p-id.1` |
| `Cli.TrainAdvances` | relsync/cli.py:108-113 | when the suggested triple is not newer, `M.m.p-id.n` continues as `M.m.p-id.(n+1)`: the sequencer advances its own output |
| `Cli.ContinuesTrain` | relsync/cli.py:104-113 | for any current version whose pre-release contains `id`, with a suggested version that is not newer, the result is the current triple followed by `-id.` and one more than the old counter |
| `Cli.ContinuesTo` | relsync/cli.py:108-113 | for any valid pre-release whose text contains the identifier, the next version is the same triple with pre-release `id.c`, where `c` is one more than the trailing counter of the old pre-release |
| `Cli.NoTrainFallsBack` | relsync/cli.py:104-115 | without a current pre-release containing `id`, the result is `suggested-id` whatever the ordering |
| `Cli.SubstringTrain` | relsync/cli.py:108 | the train test is a substring test: "rc" is found inside "src" |
| `Cli.ParentOf` | relsync/cli.py:85-121 | fails exactly when the base version is missing or does not parse, or when a pre-release is asked for and the current version is missing or does not parse; the parent bump is the coarsened dominant bump and never "major"; the suggested version is `RepoSuggested`, passed through the pre-release step when an identifier is given |
| `Cli.ParentOfPermutation` | relsync/cli.py:23-121 | the parent record does not depend on the order of the submodules |
| `Cli.NothingBumped` | relsync/cli.py:98-102 | with no bump and no pre-release, the suggested parent version is the base version normalised to `M.m.p` |
| `Cli.FetchUpdates` | relsync/cli.py:16-121 | one record per submodule, in submodule order, each the observation of that submodule; the parent record is `ParentOf` of their bumps; the run fails exactly when some submodule's observation fails or the parent step fails |
| `Charts.JoinPath` | relsync/cli.py:34 | `os.path.join`: an absolute second part replaces the first; a relative second part follows the first with exactly one `/` between them, none added when the first is empty or already ends with `/` |
| `Helm.DepVersions` | relsync/helm.py:100-102 | fails exactly when a dependency has no version; otherwise each name maps to the version of its last entry, with no key twice |
| `Helm.SubchartBump` | relsync/helm.py:110-113 | `version_bump(recorded, current)` when both are non-empty, otherwise no bump |
| `Helm.SubchartBumpOfBumped` | relsync/helm.py:110-113 | a submodule one `bump_version` step past the recorded version is reported with exactly that bump |
| `Helm.SubchartBumpUnchanged` | relsync/helm.py:110-113 | a submodule still at the recorded version is not bumped |
| `Helm.SubChartPath` | relsync/helm.py:105-106 | fails exactly when the submodule has no chart-path override; otherwise it is the submodule path joined with that override |
| `Helm.EntryBump` | relsync/helm.py:104-115 | a submodule's entry is the bump of its chart against the recorded dependency version, or the missing-path error |
| `Helm.BumpsFrom` | relsync/helm.py:104-117 | one entry per submodule, in order; fails exactly when some entry fails |
| `Helm.ComputeSubchartBumps` | relsync/helm.py:81-117 | an empty map when the parent chart is missing; an error when a dependency has no version; with the parent chart present, it fails exactly when a dependency has no version or some submodule's entry fails; otherwise every submodule's entry uses the version of its last dependency entry |
| `Helm.ParentBump` | relsync/helm.py:69 | "minor" iff the dominant bump is major, and "patch" in every other case, including no bump |
| `Helm.ParentStatus` | relsync/helm.py:57-76 | the label follows `ParentBump`; with no bump, the parent version is reported unchanged; otherwise it is `bump_version` of the parent version, which fails exactly when that does not parse |
| `Helm.ParentStatusPermutation` | relsync/helm.py:59-76 | the parent status does not depend on the order of the submodules |
| `Helm.MajorMakesParentMinor` | relsync/helm.py:69-75 | a major submodule bump makes the parent a minor bump, with the minor number raised and the patch number reset |
| `Helm.StatusUpdate` | relsync/helm.py:35-55 | the record has the submodule path, the `git describe` output as current tag and the chart's version as current version; the chart name falls back to the submodule name; the bump is the submodule's entry of the bump map; there are no suggested or latest tags |
| `Helm.StatusUpdates` | relsync/helm.py:34-55 | one record per submodule, read from its chart path; fails exactly when a submodule has no chart-path override |
| `Helm.GetCurrentStatusFromParentChart` | relsync/helm.py:16-78 | fails exactly when the bump map fails, a submodule has no chart-path override, or the parent status fails; otherwise one record per submodule, and the parent status of the bump map's values; the parent label is never "major"; with the parent chart missing, the status is no current version, no suggestion, "patch" |
| `Helm.BumpChartVersion` | relsync/helm.py:120-137 | fails exactly when the chart is missing, has no version, or its version does not parse; the result is `bump_version` of the chart version; when writing, only `version` and `appVersion` of the parent chart change, and no other file |
| `Helm.BumpedVersionReadsBack` | relsync/helm.py:9-13 | after a written bump, `get_chart_version` of the parent chart reads the new version, and every other chart reads as before |
| `Submodules.ParseTagOverrides` | relsync/submodules.py:4-5 | the keys are the union of both maps, with no key twice; the argument's value wins on shared keys |
| `Submodules.Prompt` | relsync/utils.py:99-103 | an empty line becomes the default; every answer is stripped; end of input fails |
| `Submodules.Choose` | relsync/submodules.py:37-56 | "s"/"S" selects the suggested tag; "l"/"L" the latest; a digit string n with 1 ≤ n ≤ number of tags selects position n−1; anything else skips |
| `Submodules.SubmoduleCommands` | relsync/submodules.py:37-58 | "s" checks out the suggested tag, "l" the latest tag, a valid index n the n-th recent tag, each with `-q` when quiet and run inside the submodule's directory; every answer ends with `git add <path>` run in the parent repository, and a skip runs only that |
| `Submodules.CommandsRunWhere` | relsync/submodules.py:37-58 | in every run, each checkout executes inside one of the submodules being updated and each `git add` in the parent repository, and no other command is issued |
| `Submodules.ApplySubmoduleUpdates` | relsync/submodules.py:8-58 | the run stops, with the end-of-input error, exactly when `yes` is off and fewer lines are typed than there are submodules |
| `Submodules.EndOfInputStops` | relsync/submodules.py:8-58 | when the typed lines run out at submodule k, the run stops with the end-of-input error after issuing the commands of submodules 1 to k-1, each for its own answer |
| `Submodules.AnsweredCommands` | relsync/submodules.py:8-58 | with enough typed lines, the run completes and the commands issued are the concatenation, in submodule order, of each submodule's commands for its own answer |
| `Submodules.YesChoosesSuggested` | relsync/submodules.py:29-41 | with `yes`, the run completes and every submodule is checked out at its suggested tag and added, whatever would have been typed |
| `Submodules.QuietOnlyFlag` | relsync/submodules.py:37-51 | `quiet` only adds `-q` to the checkouts: the same tags are checked out in the same directories and the same inputs stop the run the same way |
| `Submodules.EmptyAnswerIsSuggested` | relsync/utils.py:99-103 | an empty answer takes the suggested tag |
| `Submodules.BlankAnswerSkips` | relsync/utils.py:99-103 | a whitespace-only answer is not replaced by the default; it strips to the empty answer, which skips |
| `Submodules.ManualIndex` | relsync/submodules.py:47-51 | typing n selects `tags[n-1]` when 1 ≤ n ≤ the number of tags, and skips when n is 0 or too large |
| `Distribution.ParseChartPathOverrides` | relsync/distribution.py:39-57 | the submodule charts are the argument map if it is non-empty, else the file's map, else empty; the repository chart is never empty and is the argument when that is non-empty |
| `Distribution.RepoChartLayers` | relsync/distribution.py:47-55 | the repository chart is the first non-empty of the argument and the file, else `deploy/chart/Chart.yaml` |
| `Distribution.RewriteAllLastMatch` | relsync/distribution.py:22-28 | a dependency takes the new version of the last update naming its chart, and is untouched when none does |
| `Distribution.RewriteDependencies` | relsync/distribution.py:22-28 | the list keeps its length, order and names; unmatched dependencies are unchanged; matched ones take the suggested version of the last matching update, or its current version when the suggested one is empty |
| `Distribution.ApplyDistributionUpdates` | relsync/distribution.py:10-36 | fails exactly when the parent chart is missing; the chart's version becomes the suggested parent version; name and `appVersion` are kept; only the dependency versions are rewritten |
| `Distribution.NoUpdatesOnlyVersion` | relsync/distribution.py:22-34 | with no updates, only the chart's version changes |
| `Git.NameOf` | relsync/git.py:17 | the slice leaves the name between `submodule.` and `.path`, and is empty when the two ends overlap |
| `Git.ParseLine` | relsync/git.py:11-17 | a line is kept exactly when it splits in two on its first whitespace run and its key has the prefix and suffix; the name is the sliced key and the path is the rest of the line |
| `Git.ParseEntryLine` | relsync/git.py:11-18 | the line `submodule.<name>.path <path>` is read back as that name and path, inner spaces included |
| `Git.GetSubmodules` | relsync/git.py:6-19 | no name twice; each name maps to the path of the last line defining it |
| `Git.ParseLinesGet` | relsync/git.py:10-18 | a later line for the same name overwrites the earlier path |
| `Git.GetSubmodulesListing` | relsync/git.py:6-19 | the listing git prints for a set of submodules is read back as exactly those submodules, in order |
| `Git.FetchTagsListing` | relsync/git.py:22-31 | when git prints the tags one per line, they are read back in that order, and the latest tag is the first of them, or "none" when there is none |
| `Git.TagListingLines` | relsync/git.py:24 | `splitlines` of tags joined by newlines gives the tags back |
| `Git.FetchTags` | relsync/git.py:22-31 | the tags are the lines of the stripped output; the latest is "none" exactly for an empty list or a first tag named "none"; otherwise it is one of the tags |
| `Git.GetLatestTag` | relsync/git.py:34-36 | "0.0.0" when the output is empty or whitespace; otherwise the stripped output, which never starts with whitespace |
| `Text.Strip` | relsync/utils.py:94 | the result is the slice of the input between its leading and trailing whitespace; it is empty exactly for whitespace-only input |
| `Text.SplitOnce` | relsync/git.py:11 | no parts exactly for whitespace-only input; otherwise the first part is the word that starts after the leading whitespace and runs to the next whitespace; a lone word is followed only by whitespace; a second part is the rest of the line after the whitespace run that follows the word, trailing whitespace included |
| `Text.SplitLines` | relsync/git.py:10 | no line contains a line break; there are no lines exactly for the empty string |
| `Text.SplitJoin` | relsync/cli.py:110 | splitting a join of separator-free parts gives the parts back |
| `Text.JoinSplit` | relsync/cli.py:110 | joining the parts of a split gives the string back |
| `Text.SplitLinesCons` | relsync/git.py:10 | a line without line breaks followed by a newline is read back as that line |
| `Decimal.ValueOfRender` | relsync/cli.py:112-113 | `int(str(n)) == n` |
| `Decimal.RenderOfValue` | relsync/semver.py:30-32 | `str(int(s)) == s` for a numeral without leading zeros |
| `Dict.MergeGet` | relsync/submodules.py:5 | in the dict union of `a` and `b`, a key of `b` takes its value from `b` and every other key keeps its value from `a` |
| `Dict.Put` | relsync/git.py:18 | after `d[k] = v`, `k` maps to `v` and no other key changes; a key already present keeps its place, and a new one is appended |
| `Distribution.OrLayers` | relsync/distribution.py:25-28 | `a or b` picks what the layered lookup of `a`, then `b`, picks |

## Left out

- Running git is not modelled. This covers `run` itself, fetch, tag, describe, show, checkout,
  add and commit, `commit_changes`, and the `.bak` copy of the parent chart. Command output
  and the charts `git show` prints are inputs. The outputs of `git config` (in
  `Git.GetSubmodules`), of `git tag` and `git describe` (in `Git.FetchTags`) and of
  `git tag | sort -Vr | head -n 1` (in `Git.GetLatestTag`) are taken raw, and the model strips
  them as `run` does with captured output. Only the `git describe` output given to
  `Helm.StatusUpdate` is taken already stripped. Submodule checkouts are modelled as the list of
  commands issued, each with the directory it runs in: a checkout inside the submodule
  (`cwd=path`), `git add` in the parent repository.
- Submodules.ApplySubmoduleUpdates: every issued git command is assumed to succeed. A failing
  `git checkout` or `git add` raises in `run` (relsync/utils.py:95-96) and stops the loop after
  the commands before it; the model does not take command results as input, so it does not
  model that stop. Stopping at the end of typed input is modelled.
- Reading and writing YAML and JSON is not modelled. This covers `load_yaml`, `dump_yaml`,
  the `yq` fallback, the state file, and `parse_json_file`/`parse_json_arg`. Parsed documents
  are given values. A file that does not exist is absent from the file map. A file that exists
  but cannot be parsed is in the map as `EmptyChart`, the `{}` that `load_yaml` returns.
- The command-line wiring, the report printers and every message printed to stdout or stderr
  are not modelled.
- The call site that unpacks two values from `get_chart_version(repo_chart, True)` is not
  modelled, since that function takes one argument and returns one value. The current and base
  parent versions are independent inputs of `Cli.ParentOf`. The call that passes a pre-release
  identifier to `apply_distribution_updates`, which has no such parameter, is not modelled
  either.
- Full Semantic Versioning precedence (section 11 of Semantic Versioning 2.0.0) is not
  modelled, because the code never uses it.
- Characters are restricted to ASCII where Python is wider: non-ASCII digits accepted by `\d`,
  `int()` and `str.isdigit()` are not digits here. `str.lower()` is modelled only for the
  answers "s", "S", "l" and "L".
- Chart values are modelled as strings or absent. A non-string YAML value (a number, a list), a
  `null` value, a dependency without a `name` key, and a `dependencies` value that is not a
  list are not modelled. An empty YAML file, for which `load_yaml` returns `None`, is not
  modelled either.
- `get_current_status_from_parent_chart` called with no overrides at all is not modelled. The
  model takes the resolved chart paths of `parse_chart_path_overrides`, whose repository chart
  is never empty.
- Cli.NextPrerelease: its contract states only the new-train branch. The existing-train
  branch and the fallback are stated by `Cli.TrainStarts`, `Cli.TrainAdvances` and
  `Cli.NoTrainFallsBack` for the inputs they cover, not for every pre-release text.
- Cli.TrainCounter: its contract states only that a positive counter comes from a final
  all-digit segment of at least two. Its value on train labels is stated by
  `Cli.TrainCounterOfLabel` and `Cli.TrainAdvances`.

=== FILE: bumps.dfy ===
/** Bump kinds, their severity order (`bump_priority`), and the max-fold that picks the dominant one. */
module Bumps {
  import opened Wrappers

  /** The bump labels "patch", "minor" and "major"; Python's `None` (no bump) is `Option.None`. */
  datatype Bump = Patch | Minor | Major

  /** `bump_priority`: patch = 1 < minor = 2 < major = 3. */
  function Priority(b: Bump): (p: nat)
    ensures 1 <= p <= 3
    ensures b == Patch <==> p == 1
    ensures b == Major <==> p == 3
  {
    match b
    case Patch => 1
    case Minor => 2
    case Major => 3
  }

  /** The label Python uses for a bump. */
  function Name(b: Bump): string {
    match b
    case Patch => "patch"
    case Minor => "minor"
    case Major => "major"
  }

  /** The bump a label names, if it names one. */
  function FromName(s: string): (r: Option<Bump>)
    ensures r.Some? ==> Name(r.value) == s
    ensures forall b :: Name(b) == s ==> r == Some(b)
  {
    if s == "patch" then Some(Patch)
    else if s == "minor" then Some(Minor)
    else if s == "major" then Some(Major)
    else None
  }

  /** The first key of `bump_priority` whose priority equals `level`, or `None` when no key has it. */
  function BumpOfLevel(level: int): (r: Option<Bump>)
    ensures r.Some? <==> 1 <= level <= 3
    ensures r.Some? ==> Priority(r.value) == level
    ensures forall b :: Priority(b) == level ==> r == Some(b)
  {
    if level == 1 then Some(Patch)
    else if level == 2 then Some(Minor)
    else if level == 3 then Some(Major)
    else None
  }

  /** The severity of an optional bump: 0 for no bump. */
  function Level(b: Option<Bump>): nat {
    if b.Some? then Priority(b.value) else 0
  }

  function Max(a: nat, b: nat): nat {
    if a >= b then a else b
  }

  /** The left fold `level = max(level, bump_priority[bump])` over the bumps that are not `None`,
      starting from 0: the result is the greatest severity present, or 0 when no bump is present. */
  function MaxLevel(bs: seq<Option<Bump>>): (l: nat)
    ensures l <= 3
    ensures forall i :: 0 <= i < |bs| ==> Level(bs[i]) <= l
    ensures l > 0 ==> BumpOfLevel(l) in bs
    decreases |bs|
  {
    if |bs| == 0 then 0
    else
      var init := bs[..|bs| - 1];
      var prev := MaxLevel(init);
      var last := bs[|bs| - 1];
      assert forall i :: 0 <= i < |init| ==> bs[i] == init[i];
      assert prev > 0 ==> BumpOfLevel(prev) in bs by {
        if prev > 0 {
          var k :| 0 <= k < |init| && init[k] == BumpOfLevel(prev);
          assert bs[k] == init[k];
        }
      }
      Max(prev, Level(last))
  }

  /** Reference definition of the dominant severity of a set of optional bumps. */
  function LevelOfSet(s: set<Option<Bump>>): (l: nat)
    ensures forall x :: x in s ==> Level(x) <= l
    ensures l > 0 ==> BumpOfLevel(l) in s
  {
    if Some(Major) in s then 3
    else if Some(Minor) in s then 2
    else if Some(Patch) in s then 1
    else 0
  }

  /** The fold computes the reference maximum of the set of its elements. */
  lemma MaxLevelIsLevelOfSet(bs: seq<Option<Bump>>)
    ensures MaxLevel(bs) == LevelOfSet(set x | x in bs)
  {
    var m := MaxLevel(bs);
    var s := set x | x in bs;
    var n := LevelOfSet(s);
    if m > 0 {
      var k :| 0 <= k < |bs| && bs[k] == BumpOfLevel(m);
      assert bs[k] in s;
      assert m <= n;
    }
    if n > 0 {
      assert BumpOfLevel(n) in bs;
      var k :| 0 <= k < |bs| && bs[k] == BumpOfLevel(n);
      assert Level(bs[k]) == n;
    }
  }

  /** The dominant severity depends only on which bumps occur, not on their order or repetition. */
  lemma MaxLevelSameElements(a: seq<Option<Bump>>, b: seq<Option<Bump>>)
    requires forall x :: x in a <==> x in b
    ensures MaxLevel(a) == MaxLevel(b)
  {
    MaxLevelIsLevelOfSet(a);
    MaxLevelIsLevelOfSet(b);
    assert (set x | x in a) == (set x | x in b);
  }

  /** Permuting the bumps does not change the dominant severity. */
  lemma MaxLevelPermutation(a: seq<Option<Bump>>, b: seq<Option<Bump>>)
    requires multiset(a) == multiset(b)
    ensures MaxLevel(a) == MaxLevel(b)
  {
    forall x
      ensures x in a <==> x in b
    {
      assert x in a <==> x in multiset(a);
      assert x in b <==> x in multiset(b);
    }
    MaxLevelSameElements(a, b);
  }

  /** The dominant bump: the bump named by the maximum severity, or `None` when nothing was bumped. */
  function Dominant(bs: seq<Option<Bump>>): (r: Option<Bump>)
    ensures r.None? <==> forall i :: 0 <= i < |bs| ==> bs[i].None?
    ensures r.Some? ==> r in bs && forall i :: 0 <= i < |bs| ==> Level(bs[i]) <= Priority(r.value)
  {
    var l := MaxLevel(bs);
    assert l == 0 ==> forall i :: 0 <= i < |bs| ==> bs[i].None? by {
      if l == 0 {
        forall i | 0 <= i < |bs|
          ensures bs[i].None?
        {
          assert Level(bs[i]) <= 0;
        }
      }
    }
    BumpOfLevel(l)
  }
}

=== FILE: charts.dfy ===
/** Helm chart documents as the release helper reads them, the files they live in, and the
    per-submodule records (`updates`) and parent record (`parent_info`) that flow between
    `fetch_updates`, `get_current_status_from_parent_chart`, `apply_submodule_updates` and
    `apply_distribution_updates`. */
module Charts {
  import opened Wrappers
  import opened Text
  import opened Dict
  import opened Bumps

  /** One entry of a chart's `dependencies` list; `version` is `None` when the key is absent. */
  datatype Dependency = Dependency(name: string, version: Option<string>)

  /** The keys of a `Chart.yaml` the helper reads or writes; `None` means the key is absent. */
  datatype Chart = Chart(
    name: Option<string>,
    version: Option<string>,
    appVersion: Option<string>,
    dependencies: Option<seq<Dependency>>)

  /** The document `load_yaml` returns for a file it cannot read: `{}`. */
  const EmptyChart := Chart(None, None, None, None)

  /** The chart files on disk, by path. A path that is not a key does not exist; a file that
      exists but cannot be parsed is `EmptyChart`, as `load_yaml` reads it. */
  type Files = map<string, Chart>

  /** `load_yaml(path)`: the document, or `{}` when the file cannot be opened. */
  function Load(files: Files, path: string): (c: Chart)
    ensures path !in files ==> c == EmptyChart
  {
    if path in files then files[path] else EmptyChart
  }

  /** `get_chart_version(path)` (helm.py): `None` for a missing file or a chart without a version. */
  function ChartVersion(files: Files, path: string): (v: Option<string>)
    ensures v.Some? ==> path in files && files[path].version == v
    ensures path in files ==> v == files[path].version
  {
    Load(files, path).version
  }

  /** `chart.get("dependencies", [])`. */
  function Dependencies(c: Chart): seq<Dependency> {
    c.dependencies.GetOr([])
  }

  /** `os.path.join(a, b)` for two POSIX components: an absolute `b` replaces `a`, otherwise a
      separator is inserted unless `a` is empty or already ends with one. */
  function JoinPath(a: string, b: string): (p: string)
    ensures EndsWith(p, b)
    ensures StartsWith(b, "/") ==> p == b
    ensures !StartsWith(b, "/") && a != "" ==> StartsWith(p, a)
    // Exactly one separator lies between a relative `b` and a non-empty `a`.
    ensures !StartsWith(b, "/") && a != "" && !EndsWith(a, "/") ==> p == a + "/" + b
    ensures !StartsWith(b, "/") && (a == "" || EndsWith(a, "/")) ==> p == a + b
  {
    if StartsWith(b, "/") then b
    else if a == "" || EndsWith(a, "/") then
      assert (a + b)[..|a|] == a;
      a + b
    else
      assert (a + "/" + b)[..|a|] == a;
      a + "/" + b
  }

  /** One entry of `updates`: what was found for a submodule. */
  datatype Update = Update(
    path: string,
    chartName: Option<string>,
    currentTag: string,
    latestTag: Option<string>,
    suggestedTag: Option<string>,
    recentTags: seq<string>,
    currentVersion: Option<string>,
    suggestedVersion: Option<string>,
    bump: Option<Bump>)

  /** `parent_info`: the parent chart's current and suggested versions and its bump label. */
  datatype ParentInfo = ParentInfo(current: Option<string>, suggested: Option<string>, bump: Option<Bump>)

  /** The `chart_bump` of every update, in order. */
  function BumpsOf(updates: Dict<Update>): (bs: seq<Option<Bump>>)
    ensures |bs| == |updates|
    ensures forall i :: 0 <= i < |updates| ==> bs[i] == updates[i].1.bump
  {
    seq(|updates|, i requires 0 <= i < |updates| => updates[i].1.bump)
  }
}

=== FILE: cli.dfy ===
/** The decision logic of `fetch_updates` in `relsync/cli.py`: the suggested tag and bump of each
    submodule, the dominant bump, its coarsening for the parent chart, the suggested parent
    version and the pre-release sequencer. Git and the file system are inputs. */
module Cli {
  import opened Wrappers
  import opened Text
  import opened Dict
  import opened Bumps
  import opened SemVer
  import opened Charts
  import opened Distribution
  import opened Git
  import Decimal
  import Submodules

  /** What git reports in one submodule's directory: the outputs of `git tag | sort -Vr` and of
      `git describe --tags --exact-match || echo 'none'`, and the documents `git show` prints,
      keyed by the object name `<tag>:<path>`. A missing key is an object `git show` cannot print:
      `run` ignores the exit status of a captured command and returns the empty output, which
      `load_yaml_string` reads as `{}`; `Load` gives exactly that. */
  datatype Checkout = Checkout(tagOutput: string, describeOutput: string, shown: Files)

  /** `submodule_tag_overrides.get(name, latest_tag)`. */
  function SuggestedTag(overrides: Dict<string>, name: string, latest: string): (tag: string)
    ensures name in Keys(overrides) ==> Some(tag) == Get(overrides, name)
    ensures name !in Keys(overrides) ==> tag == latest
  {
    GetOr(overrides, name, latest)
  }

  /** With the overrides of `parse_tag_overrides`, a submodule goes to the tag the argument names,
      else the tag the file names, else the latest tag. */
  lemma SuggestedTagLayers(fromFile: Dict<string>, fromArg: Dict<string>, name: string, latest: string)
    requires HasUniqueKeys(fromFile) && HasUniqueKeys(fromArg)
    ensures SuggestedTag(Submodules.ParseTagOverrides(fromFile, fromArg), name, latest)
            == if name in Keys(fromArg) then Get(fromArg, name).value
               else if name in Keys(fromFile) then Get(fromFile, name).value
               else latest
  {
    var merged := Submodules.ParseTagOverrides(fromFile, fromArg);
    assert name in Keys(merged) <==> name in Keys(fromFile) || name in Keys(fromArg);
  }

  /** `suggested_tag and suggested_tag != "none"`: only then is the chart at the tag read. */
  predicate HasSuggestedTag(tag: string) {
    tag != "" && tag != "none"
  }

  /** The chart at the suggested tag, as `load_yaml_string(run("git show <tag>:<path>"))` reads
      it: none without a suggested tag, and the empty document for an object git cannot show. */
  function SuggestedChart(co: Checkout, tag: string, chartPath: string): (r: Option<Chart>)
    ensures r.Some? <==> HasSuggestedTag(tag)
    ensures r.Some? && tag + ":" + chartPath in co.shown ==> r.value == co.shown[tag + ":" + chartPath]
    ensures r.Some? && tag + ":" + chartPath !in co.shown ==> r.value == EmptyChart
  {
    if HasSuggestedTag(tag) then Some(Load(co.shown, tag + ":" + chartPath)) else None
  }

  /** The bump of one submodule: none without a suggested chart version, "major" when the
      submodule has no current chart version, otherwise `version_bump(current, suggested)`. */
  function SubmoduleBump(current: Option<string>, suggested: Option<string>): (r: Result<Option<Bump>>)
    ensures !Truthy(suggested) ==> r == Ok(None)
    ensures Truthy(suggested) && !Truthy(current) ==> r == Ok(Some(Major))
    ensures Truthy(suggested) && Truthy(current) ==> r == VersionBump(current.value, suggested.value)
  {
    if !Truthy(suggested) then Ok(None)
    else if !Truthy(current) then Ok(Some(Major))
    else VersionBump(current.value, suggested.value)
  }

  /** A submodule moving to a chart one `bump_version` step ahead is reported with that bump. */
  lemma SubmoduleBumpOfBumped(current: string, b: Bump)
    requires ParseVersion(current).Ok?
    ensures BumpVersion(current, Some(Name(b))).Ok?
    ensures SubmoduleBump(Some(current), Some(BumpVersion(current, Some(Name(b))).value)) == Ok(Some(b))
  {
    BumpRoundTrip(current, b);
    MatchNonEmpty(current);
    MatchNonEmpty(BumpVersion(current, Some(Name(b))).value);
  }

  /** The record `fetch_updates` builds for one submodule at `path`. */
  function ObserveSubmodule(name: string, path: string, overrides: Dict<string>, subCharts: Dict<string>,
                            files: Files, co: Checkout)
    : (r: Result<Update>)
    ensures var tags := FetchTags(co.tagOutput, co.describeOutput);
            var tag := SuggestedTag(overrides, name, tags.latest);
            && (r.Ok? ==> r.value.path == path && r.value.suggestedTag == Some(tag))
            && (r.Ok? ==> r.value.currentTag == tags.current && r.value.recentTags == tags.recent)
            && (r.Ok? ==> r.value.latestTag == Some(tags.latest))
    ensures var tags := FetchTags(co.tagOutput, co.describeOutput);
            var tag := SuggestedTag(overrides, name, tags.latest);
            var rel := GetOr(subCharts, name, DefaultChartLocation);
            var current := ChartVersion(files, JoinPath(path, rel));
            var shown := Load(co.shown, tag + ":" + rel);
            && (r.Ok? ==> r.value.currentVersion == current)
            && (r.Ok? && HasSuggestedTag(tag) ==>
                  r.value.suggestedVersion == shown.version && r.value.chartName == shown.name)
            && (r.Ok? && !HasSuggestedTag(tag) ==> r.value.suggestedVersion.None? && r.value.chartName.None?)
            && (r.Ok? ==> SubmoduleBump(r.value.currentVersion, r.value.suggestedVersion) == Ok(r.value.bump))
            && (r.Err? <==> HasSuggestedTag(tag) && SubmoduleBump(current, shown.version).Err?)
  {
    var tags := FetchTags(co.tagOutput, co.describeOutput);
    var tag := SuggestedTag(overrides, name, tags.latest);
    var rel := GetOr(subCharts, name, DefaultChartLocation);
    var current := ChartVersion(files, JoinPath(path, rel));
    var chart := SuggestedChart(co, tag, rel);
    var suggested := if chart.Some? then chart.value.version else None;
    var chartName := if chart.Some? then chart.value.name else None;
    match SubmoduleBump(current, suggested)
    case Err(e) => Err(e)
    case Ok(b) =>
      Ok(Update(path, chartName, tags.current, Some(tags.latest), Some(tag), tags.recent, current, suggested, b))
  }

  /** A suggested tag at which the chart cannot be shown leaves the submodule unbumped; the run
      goes on. */
  lemma UnreadableChartNoBump(name: string, path: string, overrides: Dict<string>, subCharts: Dict<string>,
                              files: Files, co: Checkout)
    requires var tags := FetchTags(co.tagOutput, co.describeOutput);
             SuggestedTag(overrides, name, tags.latest) + ":" + GetOr(subCharts, name, DefaultChartLocation) !in co.shown
    ensures var r := ObserveSubmodule(name, path, overrides, subCharts, files, co);
            r.Ok? && r.value.suggestedVersion.None? && r.value.bump.None?
  {
  }

  // ----- The parent chart -----

  /** `repo_bump`: a major submodule bump becomes a minor parent bump, a minor or patch one a
      patch parent bump, and no bump stays no bump. */
  function Coarsen(bumpType: Option<Bump>): (r: Option<Bump>)
    ensures r == Some(Minor) <==> bumpType == Some(Major)
    ensures r == Some(Patch) <==> bumpType == Some(Minor) || bumpType == Some(Patch)
    ensures r.None? <==> bumpType.None?
  {
    if bumpType.Some? && Priority(bumpType.value) > 2 then Some(Minor)
    else if bumpType.Some? then Some(Patch)
    else None
  }

  /** Coarsening never reports a major bump, never raises a level, and keeps the order of levels. */
  lemma CoarsenMonotone(a: Option<Bump>, b: Option<Bump>)
    requires Level(a) <= Level(b)
    ensures Level(Coarsen(a)) <= Level(Coarsen(b))
    ensures Level(Coarsen(b)) <= Level(b) && Coarsen(b) != Some(Major)
  {
  }

  /** `repo_suggested` before the pre-release step: the parent base version bumped by the parent
      bump, or, without one, the base version normalised to `M.m.p`. Either way a clean version. */
  function RepoSuggested(repoBase: Option<string>, repoBump: Option<Bump>): (r: Result<string>)
    ensures r.Err? <==> repoBase.None? || ParseVersion(repoBase.value).Err?
    ensures r.Ok? && repoBump.Some? ==>
              Match(r.value) == Some(Clean(Next(ParseVersion(repoBase.value).value, repoBump.value)))
    ensures r.Ok? && repoBump.None? ==> Match(r.value) == Some(Clean(ParseVersion(repoBase.value).value))
  {
    match repoBase
    case None => Err(NotAVersionString("version"))
    case Some(base) =>
      match repoBump
      case Some(b) =>
        assert FromName(Name(b)) == Some(b);
        BumpVersion(base, Some(Name(b)))
      case None => GetVersionString(base)
  }

  // ----- The pre-release sequencer -----

  /** The counter of an existing train: the last dot-separated segment when there are at least
      two segments and it is all digits, else 0. */
  function TrainCounter(prerelease: string): (n: nat)
    ensures var parts := Split(prerelease, '.');
            n > 0 ==> |parts| > 1 && Decimal.IsDigits(parts[|parts| - 1])
  {
    var parts := Split(prerelease, '.');
    if |parts| > 1 && Decimal.IsDigits(parts[|parts| - 1]) then Decimal.Value(parts[|parts| - 1]) else 0
  }

  /** The counter read back from a train label `ids.n`, with at least one identifier before the
      counter, is `n`. */
  lemma TrainCounterOfLabel(ids: seq<string>, n: nat)
    requires ValidPrerelease(ids)
    ensures TrainCounter(Join(ids + [Decimal.Render(n)], '.')) == n
  {
    var parts := ids + [Decimal.Render(n)];
    assert ValidPrerelease(parts) by {
      forall id | id in parts
        ensures IsPrereleaseIdentifier(id)
      {
        if id !in ids {
          assert id == Decimal.Render(n);
        }
      }
    }
    IdentifiersAvoid(parts, true);
    Decimal.ValueOfRender(n);
  }

  /** The pre-release step: a suggested version newer than the current one (by plain tuple
      comparison) starts a train `suggested-id`; otherwise a current pre-release containing `id`
      continues its train with the next counter; otherwise `suggested-id`. */
  function NextPrerelease(repoCurrent: Option<string>, suggested: string, id: string): (r: Result<string>)
    ensures r.Err? <==> repoCurrent.None? || ParseVersion(repoCurrent.value).Err? || ParseVersion(suggested).Err?
    ensures r.Ok? && Greater(ParseVersion(suggested).value, ParseVersion(repoCurrent.value).value) ==>
              r.value == suggested + "-" + id
  {
    match repoCurrent
    case None => Err(NotAVersionString("version"))
    case Some(current) =>
      match PrereleaseOf(current)
      case Err(e) => Err(e)
      case Ok(pre) =>
        match ParseVersion(suggested)
        case Err(e) => Err(e)
        case Ok(s) => Ok(TrainStep(ParseVersion(current).value, pre, s, suggested, id))
  }

  /** The decision of the pre-release step on the parsed current version `c` (with pre-release
      label `pre`) and the parsed suggested version `s`. */
  function TrainStep(c: Triple, pre: Option<string>, s: Triple, suggested: string, id: string): string {
    if Greater(s, c) then suggested + "-" + id
    else if Truthy(pre) && IsSubstring(id, pre.value) then
      CoreString(c) + "-" + id + "." + Decimal.Render(TrainCounter(pre.value) + 1)
    else suggested + "-" + id
  }

  /** A version `M.m.p-<ids>` with no prefix and no build. */
  function PreVersion(t: Triple, ids: seq<string>): Version {
    Version(false, t.major, t.minor, t.patch, Some(ids), None)
  }

  /** Starting a train on a clean, newer suggested version gives that version with the single
      pre-release identifier `id`. */
  lemma NewTrain(current: string, s: Triple, id: string)
    requires ParseVersion(current).Ok? && Greater(s, ParseVersion(current).value)
    requires IsPrereleaseIdentifier(id)
    ensures NextPrerelease(Some(current), CoreString(s), id) == Ok(Render(PreVersion(s, [id])))
  {
    MatchCoreString(s);
    JoinOne(id);
    var core := CoreString(s);
    assert Tail(PreVersion(s, [id])) == (['-'] + id) + "";
    NewTrainGlue(core, id);
  }

  lemma NewTrainGlue(core: string, id: string)
    ensures core + "-" + id == core + ((['-'] + id) + "")
  {
  }

  /** A current version `M.m.p-id` (no counter yet) continues as `M.m.p-id.1` when the suggested
      version is not newer. */
  lemma TrainStarts(t: Triple, id: string, suggested: string)
    requires IsPrereleaseIdentifier(id)
    requires ParseVersion(suggested).Ok? && !Greater(ParseVersion(suggested).value, t)
    ensures NextPrerelease(Some(Render(PreVersion(t, [id]))), suggested, id)
            == Ok(Render(PreVersion(t, [id, "1"])))
  {
    JoinOne(id);
    PrefixIsSubstring(id, "");
    assert id + "" == id;
    IdentifierNonEmpty(id);
    assert ValidPrerelease([id]);
    FirstCounter(id);
    ContinuesTo(t, [id], suggested, id, "1");
  }

  /** The existing-train branch on a rendered pre-release version, with the counter it appends. */
  lemma ContinuesTo(t: Triple, ids: seq<string>, suggested: string, id: string, counter: string)
    requires ValidPrerelease(ids)
    requires ParseVersion(suggested).Ok? && !Greater(ParseVersion(suggested).value, t)
    requires IsSubstring(id, Join(ids, '.')) && Join(ids, '.') != ""
    requires counter == Decimal.Render(TrainCounter(Join(ids, '.')) + 1)
    ensures NextPrerelease(Some(Render(PreVersion(t, ids))), suggested, id)
            == Ok(Render(PreVersion(t, [id, counter])))
  {
    ContinuesRendered(t, ids, suggested, id);
    RenderTrain(t, id, counter);
  }

  lemma IdentifierNonEmpty(id: string)
    requires IsPrereleaseIdentifier(id)
    ensures id != ""
  {
  }

  /** The existing-train branch on a rendered pre-release version. */
  lemma ContinuesRendered(t: Triple, ids: seq<string>, suggested: string, id: string)
    requires ValidPrerelease(ids)
    requires ParseVersion(suggested).Ok? && !Greater(ParseVersion(suggested).value, t)
    requires IsSubstring(id, Join(ids, '.')) && Join(ids, '.') != ""
    ensures NextPrerelease(Some(Render(PreVersion(t, ids))), suggested, id)
            == Ok(CoreString(t) + "-" + id + "." + Decimal.Render(TrainCounter(Join(ids, '.')) + 1))
  {
    var v := PreVersion(t, ids);
    PreVersionMatches(t, ids);
    assert TripleOf(v) == t;
    ContinuesTrain(Render(v), v, suggested, id);
  }

  lemma PreVersionMatches(t: Triple, ids: seq<string>)
    requires ValidPrerelease(ids)
    ensures Match(Render(PreVersion(t, ids))) == Some(PreVersion(t, ids))
  {
    assert WellFormed(PreVersion(t, ids));
    MatchRender(PreVersion(t, ids));
  }

  /** A train with a single identifier has no counter yet, so the next one is 1. */
  lemma FirstCounter(id: string)
    requires IsPrereleaseIdentifier(id)
    ensures Decimal.Render(TrainCounter(id) + 1) == "1"
  {
    IdentifiersAvoid([id], true);
    JoinOne(id);
    assert TrainCounter(id) == 0;
  }

  /** The existing-train branch, for a current version whose pre-release contains `id`. */
  lemma ContinuesTrain(current: string, v: Version, suggested: string, id: string)
    requires Match(current) == Some(v) && v.prerelease.Some?
    requires ParseVersion(suggested).Ok? && !Greater(ParseVersion(suggested).value, TripleOf(v))
    requires IsSubstring(id, Join(v.prerelease.value, '.')) && Join(v.prerelease.value, '.') != ""
    ensures NextPrerelease(Some(current), suggested, id)
            == Ok(CoreString(TripleOf(v)) + "-" + id + "." + Decimal.Render(TrainCounter(Join(v.prerelease.value, '.')) + 1))
  {
    MatchedParts(current, v);
    var p := Join(v.prerelease.value, '.');
    ContinuesFrom(current, TripleOf(v), p, suggested, id);
  }

  lemma MatchedParts(current: string, v: Version)
    requires Match(current) == Some(v)
    ensures ParseVersion(current) == Ok(TripleOf(v))
    ensures PrereleaseOf(current) == Ok(JoinIds(v.prerelease))
  {
  }

  /** Helper for `ContinuesTrain`: the same step, stated on the parsed core and pre-release. */
  lemma ContinuesFrom(current: string, c: Triple, p: string, suggested: string, id: string)
    requires ParseVersion(current) == Ok(c) && PrereleaseOf(current) == Ok(Some(p))
    requires ParseVersion(suggested).Ok? && !Greater(ParseVersion(suggested).value, c)
    requires IsSubstring(id, p) && p != ""
    ensures NextPrerelease(Some(current), suggested, id)
            == Ok(CoreString(c) + "-" + id + "." + Decimal.Render(TrainCounter(p) + 1))
  {
    var s := ParseVersion(suggested).value;
    NextPrereleaseParsed(current, c, Some(p), suggested, s, id);
    StepContinues(c, p, s, suggested, id);
  }

  /** Helper for `ContinuesFrom`: the existing-train branch of `TrainStep`. */
  lemma StepContinues(c: Triple, p: string, s: Triple, suggested: string, id: string)
    requires !Greater(s, c) && IsSubstring(id, p) && p != ""
    ensures TrainStep(c, Some(p), s, suggested, id)
            == CoreString(c) + "-" + id + "." + Decimal.Render(TrainCounter(p) + 1)
  {
  }

  /** Without a current pre-release containing `id` there is no train to continue: the result is
      `suggested-id` whether or not the suggested version is newer. */
  lemma NoTrainFallsBack(current: string, suggested: string, id: string)
    requires ParseVersion(current).Ok? && ParseVersion(suggested).Ok?
    requires var pre := PrereleaseOf(current).value; !Truthy(pre) || !IsSubstring(id, pre.value)
    ensures NextPrerelease(Some(current), suggested, id) == Ok(suggested + "-" + id)
  {
    NextPrereleaseParsed(current, ParseVersion(current).value, PrereleaseOf(current).value, suggested,
                         ParseVersion(suggested).value, id);
  }

  /** Once both versions are parsed, the pre-release step is `TrainStep`. */
  lemma NextPrereleaseParsed(current: string, c: Triple, pre: Option<string>, suggested: string, s: Triple, id: string)
    requires ParseVersion(current) == Ok(c) && PrereleaseOf(current) == Ok(pre)
    requires ParseVersion(suggested) == Ok(s)
    ensures NextPrerelease(Some(current), suggested, id) == Ok(TrainStep(c, pre, s, suggested, id))
  {
  }

  /** `M.m.p-id.n` continues as `M.m.p-id.(n+1)` when the suggested version is not newer: the
      sequencer advances its own output. */
  lemma TrainAdvances(t: Triple, id: string, n: nat, suggested: string)
    requires IsPrereleaseIdentifier(id)
    requires ParseVersion(suggested).Ok? && !Greater(ParseVersion(suggested).value, t)
    ensures NextPrerelease(Some(Render(PreVersion(t, [id, Decimal.Render(n)]))), suggested, id)
            == Ok(Render(PreVersion(t, [id, Decimal.Render(n + 1)])))
  {
    var counter := Decimal.Render(n);
    JoinTwo(id, counter);
    IdentifiersAvoid([id, counter], true);
    Decimal.ValueOfRender(n);
    assert TrainCounter(id + "." + counter) == n;
    PrefixIsSubstring(id, "." + counter);
    assert id + "." + counter == id + ("." + counter);
    ContinuesTo(t, [id, counter], suggested, id, Decimal.Render(n + 1));
  }

  /** The text the existing-train branch builds is the rendering of the two-identifier version. */
  lemma RenderTrain(t: Triple, id: string, counter: string)
    ensures CoreString(t) + "-" + id + "." + counter == Render(PreVersion(t, [id, counter]))
  {
    JoinTwo(id, counter);
    var core := CoreString(t);
    assert Tail(PreVersion(t, [id, counter])) == ['-'] + (id + ['.'] + counter) + "";
    TrainGlue(core, id, counter);
  }

  lemma TrainGlue(core: string, id: string, counter: string)
    ensures core + "-" + id + "." + counter == core + (['-'] + (id + ['.'] + counter) + "")
  {
  }

  lemma JoinOne(id: string)
    ensures Join([id], '.') == id
  {
  }

  lemma JoinTwo(a: string, b: string)
    ensures Join([a, b], '.') == a + "." + b
  {
    assert [a, b][1..] == [b];
  }

  lemma PrefixIsSubstring(a: string, b: string)
    ensures IsSubstring(a, a + b)
  {
    assert (a + b)[..|a|] == a;
  }

  /** The train test is a substring test: an identifier inside another train's label continues
      that train. */
  lemma SubstringTrain()
    ensures IsSubstring("rc", "src")
  {
    assert "src"[1..] == "rc";
    assert "src"[1..][..2] == "rc";
  }

  // ----- fetch_updates -----

  /** When the parent step fails: the base version is missing or not a version, or a pre-release
      is asked for and the current version is missing or not a version. */
  predicate ParentFails(repoCurrent: Option<string>, repoBase: Option<string>, prereleaseId: Option<string>) {
    || repoBase.None? || ParseVersion(repoBase.value).Err?
    || (prereleaseId.Some? && (repoCurrent.None? || ParseVersion(repoCurrent.value).Err?))
  }

  /** The parent record computed from the submodule bumps: the dominant bump (the level fold and
      level lookup), its coarsening, and the suggested parent version with the optional
      pre-release step. */
  function ParentOf(bumps: seq<Option<Bump>>, repoCurrent: Option<string>, repoBase: Option<string>,
                    prereleaseId: Option<string>)
    : (r: Result<ParentInfo>)
    ensures r.Err? <==> ParentFails(repoCurrent, repoBase, prereleaseId)
    ensures r.Ok? ==> r.value.current == repoCurrent && r.value.suggested.Some?
    ensures r.Ok? ==> r.value.bump == Coarsen(Dominant(bumps))
    ensures r.Ok? ==> r.value.bump != Some(Major)
    ensures r.Ok? && prereleaseId.None? ==> RepoSuggested(repoBase, r.value.bump) == Ok(r.value.suggested.value)
    ensures r.Ok? && prereleaseId.Some? ==>
              RepoSuggested(repoBase, r.value.bump).Ok?
              && NextPrerelease(repoCurrent, RepoSuggested(repoBase, r.value.bump).value, prereleaseId.value)
                 == Ok(r.value.suggested.value)
  {
    var repoBump := Coarsen(BumpOfLevel(MaxLevel(bumps)));
    match RepoSuggested(repoBase, repoBump)
    case Err(e) => Err(e)
    case Ok(suggested) =>
      if prereleaseId.None? then Ok(ParentInfo(repoCurrent, Some(suggested), repoBump))
      else
        match NextPrerelease(repoCurrent, suggested, prereleaseId.value)
        case Err(e) => Err(e)
        case Ok(s) => Ok(ParentInfo(repoCurrent, Some(s), repoBump))
  }

  /** The parent record does not depend on the order in which the submodules were visited. */
  lemma ParentOfPermutation(a: seq<Option<Bump>>, b: seq<Option<Bump>>, repoCurrent: Option<string>,
                            repoBase: Option<string>, prereleaseId: Option<string>)
    requires multiset(a) == multiset(b)
    ensures ParentOf(a, repoCurrent, repoBase, prereleaseId) == ParentOf(b, repoCurrent, repoBase, prereleaseId)
  {
    MaxLevelPermutation(a, b);
  }

  /** With no submodule bumped and no pre-release, the parent keeps its base version, normalised. */
  lemma NothingBumped(bumps: seq<Option<Bump>>, repoBase: string)
    requires forall i :: 0 <= i < |bumps| ==> bumps[i].None?
    requires ParseVersion(repoBase).Ok?
    ensures ParentOf(bumps, None, Some(repoBase), None)
            == Ok(ParentInfo(None, Some(CoreString(ParseVersion(repoBase).value)), None))
  {
  }

  /** `fetch_updates`: one record per submodule, in submodule order, and the parent record.
      `subs` is the result of `get_submodules`, `checkouts` what git reports in a submodule
      directory, and `repoCurrent`/`repoBase` the parent chart versions the caller reads. */
  function FetchUpdates(subs: Dict<string>, overrides: Dict<string>, paths: ChartPaths, files: Files,
                        checkouts: string -> Checkout, repoCurrent: Option<string>, repoBase: Option<string>,
                        prereleaseId: Option<string>)
    : (r: Result<(Dict<Update>, ParentInfo)>)
    ensures r.Ok? ==> Keys(r.value.0) == Keys(subs)
    ensures r.Ok? ==> forall i :: 0 <= i < |subs| ==>
              ObserveSubmodule(subs[i].0, subs[i].1, overrides, paths.submoduleCharts, files, checkouts(subs[i].1))
                == Ok(r.value.0[i].1)
    ensures r.Ok? ==> ParentOf(BumpsOf(r.value.0), repoCurrent, repoBase, prereleaseId) == Ok(r.value.1)
    ensures r.Err? <==>
              || (exists i :: 0 <= i < |subs| &&
                    ObserveSubmodule(subs[i].0, subs[i].1, overrides, paths.submoduleCharts, files,
                                     checkouts(subs[i].1)).Err?)
              || ParentFails(repoCurrent, repoBase, prereleaseId)
  {
    var observe := (name, path) => ObserveSubmodule(name, path, overrides, paths.submoduleCharts, files, checkouts(path));
    match TryMap(subs, observe)
    case Err(e) => Err(e)
    case Ok(updates) =>
      match ParentOf(BumpsOf(updates), repoCurrent, repoBase, prereleaseId)
      case Err(e) => Err(e)
      case Ok(parent) => Ok((updates, parent))
  }
}

=== FILE: decimal.dfy ===
/** ASCII decimal numerals: Python's `str(n)` for a natural number and `int(s)` for a digit string. */
module Decimal {

  predicate IsDigit(c: char) {
    '0' <= c <= '9'
  }

  /** Python `s.isdigit()` restricted to ASCII: non-empty and every character a digit. */
  predicate IsDigits(s: string) {
    |s| > 0 && AllDigits(s)
  }

  predicate AllDigits(s: string) {
    forall i :: 0 <= i < |s| ==> IsDigit(s[i])
  }

  /** A numeral without leading zeros: the regex `0|[1-9][0-9]*`. */
  predicate IsCanonical(s: string) {
    IsDigits(s) && (s[0] == '0' ==> |s| == 1)
  }

  function DigitValue(c: char): nat
    requires IsDigit(c)
  {
    (c as int - '0' as int) as nat
  }

  function DigitChar(d: nat): (c: char)
    requires d < 10
    ensures IsDigit(c) && DigitValue(c) == d
  {
    ('0' as int + d) as char
  }

  /** Python `int(s)` on an ASCII digit string (leading zeros allowed). */
  function Value(s: string): nat
    requires AllDigits(s)
    decreases |s|
  {
    if |s| == 0 then 0 else Value(s[..|s| - 1]) * 10 + DigitValue(s[|s| - 1])
  }

  /** Python `str(n)` for a natural number. */
  function Render(n: nat): (s: string)
    ensures IsCanonical(s)
    decreases n
  {
    if n < 10 then [DigitChar(n)] else Render(n / 10) + [DigitChar(n % 10)]
  }

  /** `int(str(n)) == n`. */
  lemma {:induction false} ValueOfRender(n: nat)
    ensures Value(Render(n)) == n
    decreases n
  {
    if n >= 10 {
      var s := Render(n);
      assert s[..|s| - 1] == Render(n / 10);
      ValueOfRender(n / 10);
    }
  }

  lemma {:induction false} ValueOfLongCanonical(s: string)
    requires IsCanonical(s) && |s| >= 2
    ensures Value(s) >= 10
    decreases |s|
  {
    var p := s[..|s| - 1];
    assert p[0] == s[0];
    if |p| >= 2 {
      ValueOfLongCanonical(p);
    } else {
      assert Value(p) == Value(p[..0]) * 10 + DigitValue(p[0]);
      assert Value(p) >= 1;
    }
  }

  /** `str(int(s)) == s` for a numeral without leading zeros. */
  lemma {:induction false} RenderOfValue(s: string)
    requires IsCanonical(s)
    ensures Render(Value(s)) == s
    decreases |s|
  {
    if |s| == 1 {
      assert Value(s) == Value(s[..0]) * 10 + DigitValue(s[0]);
    } else {
      var p := s[..|s| - 1];
      assert p[0] == s[0];
      assert IsCanonical(p);
      RenderOfValue(p);
      if |p| >= 2 {
        ValueOfLongCanonical(p);
      } else {
        assert Value(p) == Value(p[..0]) * 10 + DigitValue(p[0]);
      }
      var n := Value(s);
      assert n / 10 == Value(p) && n % 10 == DigitValue(s[|s| - 1]);
      assert p + [s[|s| - 1]] == s;
    }
  }

  /** Two numerals without leading zeros are equal exactly when their values are. */
  lemma CanonicalInjective(a: string, b: string)
    requires IsCanonical(a) && IsCanonical(b) && Value(a) == Value(b)
    ensures a == b
  {
    RenderOfValue(a);
    RenderOfValue(b);
  }
}

=== FILE: dict.dfy ===
/** Python dictionaries with string keys: insertion-ordered, a re-assigned key keeps its place. */
module Dict {
  import opened Wrappers

  /** The entries of a dictionary in insertion order. */
  type Dict<V> = seq<(string, V)>

  function Keys<V>(d: Dict<V>): (ks: seq<string>)
    ensures |ks| == |d|
    ensures forall i :: 0 <= i < |d| ==> ks[i] == d[i].0
  {
    seq(|d|, i requires 0 <= i < |d| => d[i].0)
  }

  /** `list(d.values())`: the values, in insertion order. */
  function Values<V>(d: Dict<V>): (vs: seq<V>)
    ensures |vs| == |d|
    ensures forall i :: 0 <= i < |d| ==> vs[i] == d[i].1
  {
    seq(|d|, i requires 0 <= i < |d| => d[i].1)
  }

  /** Every key occurs once, as in any Python dictionary. */
  predicate HasUniqueKeys<V>(d: Dict<V>) {
    forall i, j :: 0 <= i < j < |d| ==> d[i].0 != d[j].0
  }

  /** The position of `k`, or `|d|` when `k` is not a key. */
  function IndexOf<V>(d: Dict<V>, k: string): (i: nat)
    ensures i <= |d|
    ensures i < |d| ==> d[i].0 == k
    ensures forall j :: 0 <= j < i ==> d[j].0 != k
    decreases |d|
  {
    if |d| == 0 then 0
    else if d[0].0 == k then 0
    else 1 + IndexOf(d[1..], k)
  }

  /** `d.get(k)`. */
  function Get<V>(d: Dict<V>, k: string): (r: Option<V>)
    ensures r.Some? <==> k in Keys(d)
  {
    var i := IndexOf(d, k);
    if i < |d| then Some(d[i].1)
    else
      assert forall j :: 0 <= j < |d| ==> Keys(d)[j] != k;
      None
  }

  /** `d.get(k, default)`. */
  function GetOr<V>(d: Dict<V>, k: string, default: V): (r: V)
    ensures Get(d, k).Some? ==> r == Get(d, k).value
    ensures Get(d, k).None? ==> r == default
  {
    Get(d, k).GetOr(default)
  }

  /** `d[k] = v`: an existing key is updated where it stands, a new key goes last. */
  function Put<V>(d: Dict<V>, k: string, v: V): (r: Dict<V>)
    ensures Get(r, k) == Some(v)
    ensures forall k' :: k' != k ==> Get(r, k') == Get(d, k')
    ensures k in Keys(d) ==> Keys(r) == Keys(d)
    ensures k !in Keys(d) ==> Keys(r) == Keys(d) + [k]
    ensures HasUniqueKeys(d) ==> HasUniqueKeys(r)
  {
    var i := IndexOf(d, k);
    if i < |d| then
      var r := d[i := (k, v)];
      assert Keys(r) == Keys(d);
      assert forall k' :: k' != k ==> IndexOf(r, k') == IndexOf(d, k') by {
        forall k' | k' != k
          ensures IndexOf(r, k') == IndexOf(d, k')
        {
          SameKeysSameIndex(d, r, k');
        }
      }
      r
    else
      var r := d + [(k, v)];
      assert forall k' :: k' != k ==> Get(r, k') == Get(d, k') by {
        forall k' | k' != k
          ensures Get(r, k') == Get(d, k')
        {
          AppendIndex(d, (k, v), k');
        }
      }
      AppendIndex(d, (k, v), k);
      assert forall j :: 0 <= j < |d| ==> Keys(d)[j] != k;
      assert Keys(r) == Keys(d) + [k];
      r
  }

  /** A new key is appended. */
  lemma PutFresh<V>(d: Dict<V>, k: string, v: V)
    requires k !in Keys(d)
    ensures Put(d, k, v) == d + [(k, v)]
  {
    assert IndexOf(d, k) == |d|;
  }

  lemma {:induction false} SameKeysSameIndex<V>(d: Dict<V>, r: Dict<V>, k: string)
    requires Keys(d) == Keys(r)
    ensures IndexOf(d, k) == IndexOf(r, k)
    decreases |d|
  {
    if |d| > 0 && d[0].0 != k {
      assert Keys(d[1..]) == Keys(d)[1..];
      assert Keys(r[1..]) == Keys(r)[1..];
      SameKeysSameIndex(d[1..], r[1..], k);
    }
  }

  lemma {:induction false} AppendIndex<V>(d: Dict<V>, e: (string, V), k: string)
    ensures IndexOf(d + [e], k)
            == if IndexOf(d, k) < |d| then IndexOf(d, k) else if e.0 == k then |d| else |d| + 1
    decreases |d|
  {
    if |d| > 0 {
      assert (d + [e])[1..] == d[1..] + [e];
      AppendIndex(d[1..], e, k);
    }
  }

  /** `a | b`: the entries of `a`, each taking `b`'s value when `b` has the key, then `b`'s other
      entries in `b`'s order. */
  function Merge<V>(a: Dict<V>, b: Dict<V>): (r: Dict<V>)
    decreases |b|
  {
    if |b| == 0 then a
    else Merge(Put(a, b[0].0, b[0].1), b[1..])
  }

  /** The right operand wins on shared keys; every other key keeps the left operand's value. */
  lemma {:induction false} MergeGet<V>(a: Dict<V>, b: Dict<V>, k: string)
    requires HasUniqueKeys(b)
    ensures Get(Merge(a, b), k) == if k in Keys(b) then Get(b, k) else Get(a, k)
    decreases |b|
  {
    if |b| > 0 {
      var a' := Put(a, b[0].0, b[0].1);
      var b' := b[1..];
      assert HasUniqueKeys(b');
      assert Keys(b') == Keys(b)[1..];
      MergeGet(a', b', k);
      if k == b[0].0 {
        assert k !in Keys(b') by {
          forall j | 0 <= j < |b'|
            ensures b'[j].0 != k
          {
            assert b[j + 1].0 != b[0].0;
          }
        }
        assert IndexOf(b, k) == 0;
      } else {
        assert k in Keys(b) <==> k in Keys(b');
        assert Get(b, k) == Get(b', k) by {
          assert IndexOf(b, k) == 1 + IndexOf(b', k);
        }
      }
    }
  }

  lemma MergeGetAll<V>(a: Dict<V>, b: Dict<V>)
    requires HasUniqueKeys(b)
    ensures forall k :: Get(Merge(a, b), k) == if k in Keys(b) then Get(b, k) else Get(a, k)
  {
    forall k
      ensures Get(Merge(a, b), k) == if k in Keys(b) then Get(b, k) else Get(a, k)
    {
      MergeGet(a, b, k);
    }
  }

  /** The keys of `a | b` are the keys of `a` and of `b`, and no key twice. */
  lemma {:induction false} MergeKeys<V>(a: Dict<V>, b: Dict<V>)
    requires HasUniqueKeys(a)
    ensures HasUniqueKeys(Merge(a, b))
    ensures forall k :: k in Keys(Merge(a, b)) <==> k in Keys(a) || k in Keys(b)
    decreases |b|
  {
    if |b| > 0 {
      var a' := Put(a, b[0].0, b[0].1);
      var m := Merge(a', b[1..]);
      assert Merge(a, b) == m;
      MergeKeys(a', b[1..]);
      PutKeys(a, b[0].0, b[0].1);
      TailKeys(b);
    }
  }

  lemma TailKeys<V>(b: Dict<V>)
    requires |b| > 0
    ensures forall k :: k in Keys(b) <==> k == b[0].0 || k in Keys(b[1..])
  {
    assert Keys(b) == [b[0].0] + Keys(b[1..]);
  }

  lemma PutKeys<V>(d: Dict<V>, k: string, v: V)
    ensures forall x :: x in Keys(Put(d, k, v)) <==> x in Keys(d) || x == k
  {
  }

  /** `{k: f(k, v) for k, v in d.items()}` where `f` may fail: the first failure, in order, ends
      the loop. */
  function TryMap<U, V>(d: Dict<U>, f: (string, U) -> Result<V>): (r: Result<Dict<V>>)
    ensures r.Ok? ==> Keys(r.value) == Keys(d)
    ensures r.Ok? ==> forall i :: 0 <= i < |d| ==> f(d[i].0, d[i].1) == Ok(r.value[i].1)
    ensures r.Err? <==> exists i :: 0 <= i < |d| && f(d[i].0, d[i].1).Err?
    ensures r.Err? ==> exists i :: 0 <= i < |d| && f(d[i].0, d[i].1) == Err(r.error)
                                   && forall j :: 0 <= j < i ==> f(d[j].0, d[j].1).Ok?
    decreases |d|
  {
    if |d| == 0 then Ok([])
    else
      var rest := TryMap(d[1..], f);
      match f(d[0].0, d[0].1)
      case Err(e) => Err(e)
      case Ok(v) =>
        if rest.Err? then
          ShiftFailure(d, f, rest.error);
          Err(rest.error)
        else
          ConsSuccess(d, f, v, rest.value);
          Ok([(d[0].0, v)] + rest.value)
  }

  /** The first failure of the tail, after a head that succeeds, is the first failure of the whole. */
  lemma ShiftFailure<U, V>(d: Dict<U>, f: (string, U) -> Result<V>, e: Error)
    requires |d| > 0 && f(d[0].0, d[0].1).Ok?
    requires exists i :: 0 <= i < |d[1..]| && f(d[1..][i].0, d[1..][i].1) == Err(e)
                         && forall j :: 0 <= j < i ==> f(d[1..][j].0, d[1..][j].1).Ok?
    ensures exists i :: 0 <= i < |d| && f(d[i].0, d[i].1) == Err(e)
                        && forall j :: 0 <= j < i ==> f(d[j].0, d[j].1).Ok?
  {
    var i :| 0 <= i < |d[1..]| && f(d[1..][i].0, d[1..][i].1) == Err(e)
             && forall j :: 0 <= j < i ==> f(d[1..][j].0, d[1..][j].1).Ok?;
    assert d[i + 1] == d[1..][i];
    forall j | 0 <= j < i + 1
      ensures f(d[j].0, d[j].1).Ok?
    {
      if j > 0 {
        assert d[j] == d[1..][j - 1];
      }
    }
  }

  /** A head that succeeds in front of a tail that succeeds everywhere. */
  lemma ConsSuccess<U, V>(d: Dict<U>, f: (string, U) -> Result<V>, v: V, rest: Dict<V>)
    requires |d| > 0 && f(d[0].0, d[0].1) == Ok(v)
    requires Keys(rest) == Keys(d[1..])
    requires forall i :: 0 <= i < |d[1..]| ==> f(d[1..][i].0, d[1..][i].1) == Ok(rest[i].1)
    ensures Keys([(d[0].0, v)] + rest) == Keys(d)
    ensures forall i :: 0 <= i < |d| ==> f(d[i].0, d[i].1) == Ok(([(d[0].0, v)] + rest)[i].1)
    ensures !exists i :: 0 <= i < |d| && f(d[i].0, d[i].1).Err?
  {
    var r := [(d[0].0, v)] + rest;
    assert Keys(r) == [d[0].0] + Keys(rest);
    assert Keys(d) == [d[0].0] + Keys(d[1..]);
    forall i | 0 <= i < |d|
      ensures f(d[i].0, d[i].1) == Ok(r[i].1)
    {
      if i > 0 {
        assert d[i] == d[1..][i - 1] && r[i] == rest[i - 1];
      }
    }
  }
}

=== FILE: distribution.dfy ===
/** `relsync/distribution.py`: where the charts are (`parse_chart_path_overrides`) and the rewrite
    of the parent chart (`apply_distribution_updates`). */
module Distribution {
  import opened Wrappers
  import opened Text
  import opened Dict
  import opened Charts

  const DefaultChartDir := "deploy/chart"

  /** `default_chart_location`. */
  const DefaultChartLocation := DefaultChartDir + "/Chart.yaml"

  /** The two keys of a chart-path overrides file that are read; `None` when absent. A file that
      is missing or not valid JSON reads as `{}`, that is, both `None`. */
  datatype OverridesFile = OverridesFile(submoduleCharts: Option<Dict<string>>, repoChart: Option<string>)

  /** The resolved chart paths: exactly the keys `repo_chart` and `submodule_charts`. */
  datatype ChartPaths = ChartPaths(repoChart: string, submoduleCharts: Dict<string>)

  /** Reference definition of layered settings: the first truthy layer, else the fallback. */
  function FirstTruthy(layers: seq<Option<string>>, fallback: string): string
    decreases |layers|
  {
    if |layers| == 0 then fallback
    else if Truthy(layers[0]) then layers[0].value
    else FirstTruthy(layers[1..], fallback)
  }

  /** `parse_chart_path_overrides(file, submodule_arg, repo_arg)`, with the two JSON inputs already
      parsed (`parse_json_arg` yields `{}` for text that is not JSON). */
  function ParseChartPathOverrides(file: OverridesFile, submoduleArg: Dict<string>, repoArg: Option<string>)
    : (r: ChartPaths)
    ensures r.repoChart != ""
    ensures Truthy(repoArg) ==> r.repoChart == repoArg.value
    ensures |submoduleArg| > 0 ==> r.submoduleCharts == submoduleArg
    ensures |submoduleArg| == 0 && file.submoduleCharts.Some? ==> r.submoduleCharts == file.submoduleCharts.value
    ensures |submoduleArg| == 0 && file.submoduleCharts.None? ==> r.submoduleCharts == []
  {
    var submoduleCharts := if |submoduleArg| > 0 then submoduleArg else file.submoduleCharts.GetOr([]);
    var repoOverride := if Truthy(repoArg) then repoArg else file.repoChart;
    var repoChart := if Truthy(repoOverride) then repoOverride.value else DefaultChartLocation;
    ChartPaths(repoChart, submoduleCharts)
  }

  /** The parent chart is the first truthy of argument and file, else the default location. */
  lemma RepoChartLayers(file: OverridesFile, submoduleArg: Dict<string>, repoArg: Option<string>)
    ensures ParseChartPathOverrides(file, submoduleArg, repoArg).repoChart
            == FirstTruthy([repoArg, file.repoChart], DefaultChartLocation)
  {
    var layers := [repoArg, file.repoChart];
    assert layers[1..] == [file.repoChart];
    assert layers[1..][1..] == [];
    assert FirstTruthy(layers[1..], DefaultChartLocation)
           == if Truthy(file.repoChart) then file.repoChart.value else DefaultChartLocation;
  }

  /** The version a matching update gives a dependency: the suggested chart version, or the
      current one when the suggested one is missing or empty. */
  function NewVersion(u: Update): Option<string> {
    Or(u.suggestedVersion, u.currentVersion)
  }

  /** `a or b` is the layered lookup of `a` then `b`: whatever the fallback, the two agree. */
  lemma OrLayers(a: Option<string>, b: Option<string>, fallback: string)
    ensures FirstTruthy([Or(a, b)], fallback) == FirstTruthy([a, b], fallback)
  {
    assert [a, b][1..] == [b];
    assert [b][1..] == [];
    assert [Or(a, b)][1..] == [];
  }

  /** One pass of the inner loop: the dependency named like the update's chart takes its version. */
  function Rewrite(u: Update, d: Dependency): (r: Dependency)
    ensures r.name == d.name
  {
    if u.chartName == Some(d.name) then d.(version := NewVersion(u)) else d
  }

  /** The nested loops for one dependency: every update, in order, may rewrite it. */
  function RewriteAll(updates: seq<Update>, d: Dependency): (r: Dependency)
    ensures r.name == d.name
    decreases |updates|
  {
    if |updates| == 0 then d else RewriteAll(updates[1..], Rewrite(updates[0], d))
  }

  /** Reference definition: the last update whose chart name is `name`, if any. */
  function LastMatch(updates: seq<Update>, name: string): Option<Update>
    decreases |updates|
  {
    if |updates| == 0 then None
    else
      var later := LastMatch(updates[1..], name);
      if later.Some? then later
      else if updates[0].chartName == Some(name) then Some(updates[0])
      else None
  }

  /** The last matching update decides a dependency's version; with no match it is untouched. */
  lemma {:induction false} RewriteAllLastMatch(updates: seq<Update>, d: Dependency)
    ensures RewriteAll(updates, d)
            == match LastMatch(updates, d.name)
               case Some(u) => d.(version := NewVersion(u))
               case None => d
    decreases |updates|
  {
    if |updates| > 0 {
      RewriteAllLastMatch(updates[1..], Rewrite(updates[0], d));
    }
  }

  /** The dependency list after all updates: same length, same order, same names. */
  function RewriteDependencies(updates: seq<Update>, deps: seq<Dependency>): (r: seq<Dependency>)
    ensures |r| == |deps|
    ensures forall i :: 0 <= i < |deps| ==> r[i].name == deps[i].name
    ensures forall i :: 0 <= i < |deps| && LastMatch(updates, deps[i].name).None? ==> r[i] == deps[i]
    ensures forall i :: 0 <= i < |deps| && LastMatch(updates, deps[i].name).Some? ==>
              r[i].version == NewVersion(LastMatch(updates, deps[i].name).value)
  {
    forall i | 0 <= i < |deps|
      ensures RewriteAll(updates, deps[i])
              == match LastMatch(updates, deps[i].name)
                 case Some(u) => deps[i].(version := NewVersion(u))
                 case None => deps[i]
    {
      RewriteAllLastMatch(updates, deps[i]);
    }
    seq(|deps|, i requires 0 <= i < |deps| => RewriteAll(updates, deps[i]))
  }

  /** `apply_distribution_updates`: the parent chart as written back. A missing chart file is an
      error; the dependency versions follow the updates and the chart version becomes the
      suggested parent version; nothing else changes. */
  function ApplyDistributionUpdates(files: Files, paths: ChartPaths, updates: Dict<Update>, parent: ParentInfo)
    : (r: Result<Chart>)
    ensures r.Err? <==> paths.repoChart !in files
    ensures r.Err? ==> r.error == ChartNotFound
    ensures r.Ok? ==> r.value.version == parent.suggested
    ensures r.Ok? ==> r.value.name == files[paths.repoChart].name
    ensures r.Ok? ==> r.value.appVersion == files[paths.repoChart].appVersion
    ensures r.Ok? ==> (r.value.dependencies.Some? <==> files[paths.repoChart].dependencies.Some?)
    ensures r.Ok? && r.value.dependencies.Some? ==>
              r.value.dependencies.value
                == RewriteDependencies(Values(updates), files[paths.repoChart].dependencies.value)
  {
    if paths.repoChart !in files then Err(ChartNotFound)
    else
      var chart := files[paths.repoChart];
      var deps := match chart.dependencies
                  case Some(ds) => Some(RewriteDependencies(Values(updates), ds))
                  case None => None;
      Ok(chart.(dependencies := deps, version := parent.suggested))
  }

  /** Without updates only the chart version changes. */
  lemma NoUpdatesOnlyVersion(files: Files, paths: ChartPaths, parent: ParentInfo)
    requires paths.repoChart in files
    ensures ApplyDistributionUpdates(files, paths, [], parent)
            == Ok(files[paths.repoChart].(version := parent.suggested))
  {
    var chart := files[paths.repoChart];
    if chart.dependencies.Some? {
      var ds := chart.dependencies.value;
      assert RewriteDependencies([], ds) == ds;
    }
  }
}

=== FILE: git.dfy ===
/** What `relsync/git.py` makes of git's output: the `.gitmodules` path listing parsed by
    `get_submodules`, the tag list of `fetch_tags` and the default of `get_latest_tag`. The git
    commands themselves are not modelled; their standard output is the input. */
module Git {
  import opened Wrappers
  import opened Text
  import opened Dict

  const SubmodulePrefix := "submodule."
  const PathSuffix := ".path"

  /** `key[len("submodule."):-len(".path")]`: Python's slice is empty when the two ends cross. */
  function NameOf(key: string): (name: string)
    requires |key| >= |PathSuffix|
    ensures (StartsWith(key, SubmodulePrefix) && EndsWith(key, PathSuffix)
             && |key| >= |SubmodulePrefix| + |PathSuffix|) ==> SubmodulePrefix + name + PathSuffix == key
    ensures |key| < |SubmodulePrefix| + |PathSuffix| ==> name == ""
  {
    var stop := |key| - |PathSuffix|;
    if |SubmodulePrefix| <= stop then key[|SubmodulePrefix|..stop] else ""
  }

  /** One line of `git config --get-regexp path`: the word before the first whitespace run is the
      key, everything after it (inner spaces included) the path. Lines that do not split in two,
      and keys that are not `submodule.<name>.path`, are ignored. */
  function ParseLine(line: string): (r: Option<(string, string)>)
    ensures r.Some? ==> |r.value.1| > 0 && !IsSpace(r.value.1[0])
    ensures r.Some? ==> NoSpace(r.value.0)
    ensures var parts := SplitOnce(line);
            r.Some? <==> |parts| == 2 && StartsWith(parts[0], SubmodulePrefix) && EndsWith(parts[0], PathSuffix)
    ensures r.Some? ==> r.value.1 == SplitOnce(line)[1] && r.value.0 == NameOf(SplitOnce(line)[0])
  {
    var parts := SplitOnce(line);
    if |parts| != 2 then None
    else
      var key := parts[0];
      if !StartsWith(key, SubmodulePrefix) || !EndsWith(key, PathSuffix) then None
      else
        var name := NameOf(key);
        assert NoSpace(name) by {
          if |SubmodulePrefix| <= |key| - |PathSuffix| {
            forall j | 0 <= j < |name|
              ensures !IsSpace(name[j])
            {
              assert name[j] == key[|SubmodulePrefix| + j];
            }
          }
        }
        Some((name, parts[1]))
  }

  /** The loop of `get_submodules`, starting from the dictionary built so far. */
  function ParseLines(acc: Dict<string>, lines: seq<string>): Dict<string>
    decreases |lines|
  {
    if |lines| == 0 then acc
    else
      var acc' := match ParseLine(lines[0])
                  case Some((name, path)) => Put(acc, name, path)
                  case None => acc;
      ParseLines(acc', lines[1..])
  }

  /** Reference definition: the path of the last line that defines `name`, if any line does. */
  function LastDefinition(lines: seq<string>, name: string): Option<string>
    decreases |lines|
  {
    if |lines| == 0 then None
    else
      var later := LastDefinition(lines[1..], name);
      if later.Some? then later
      else match ParseLine(lines[0])
        case Some((n, p)) => if n == name then Some(p) else None
        case None => None
  }

  /** `get_submodules()` on the raw output of the git command, which it strips as `run` does. */
  function GetSubmodules(output: string): (r: Dict<string>)
    ensures HasUniqueKeys(r)
    ensures forall name :: Get(r, name) == LastDefinition(SplitLines(Strip(output)), name)
  {
    var lines := SplitLines(Strip(output));
    forall name
      ensures Get(ParseLines([], lines), name) == LastDefinition(lines, name)
    {
      ParseLinesGet([], lines, name);
    }
    ParseLinesUnique([], lines);
    ParseLines([], lines)
  }

  /** A later line for the same name overwrites the path of an earlier one. */
  lemma {:induction false} ParseLinesGet(acc: Dict<string>, lines: seq<string>, name: string)
    ensures Get(ParseLines(acc, lines), name)
            == if LastDefinition(lines, name).Some? then LastDefinition(lines, name) else Get(acc, name)
    decreases |lines|
  {
    if |lines| > 0 {
      var acc' := match ParseLine(lines[0])
                  case Some((n, p)) => Put(acc, n, p)
                  case None => acc;
      ParseLinesGet(acc', lines[1..], name);
    }
  }

  lemma {:induction false} ParseLinesUnique(acc: Dict<string>, lines: seq<string>)
    requires HasUniqueKeys(acc)
    ensures HasUniqueKeys(ParseLines(acc, lines))
    decreases |lines|
  {
    if |lines| > 0 {
      var acc' := match ParseLine(lines[0])
                  case Some((n, p)) => Put(acc, n, p)
                  case None => acc;
      ParseLinesUnique(acc', lines[1..]);
    }
  }

  /** The line git prints for a submodule. */
  function EntryLine(name: string, path: string): string {
    SubmodulePrefix + name + PathSuffix + " " + path
  }

  /** A line that git prints (a path, a tag) and that `strip()`, `split()` and `splitlines()`
      leave intact. */
  predicate IsPlainLine(line: string) {
    |line| > 0 && !IsSpace(line[0]) && !IsSpace(line[|line| - 1]) && Avoids(line, LineBreaks)
  }

  /** The line for a submodule whose name has no whitespace is read back as that submodule. */
  lemma ParseEntryLine(name: string, path: string)
    requires NoSpace(name)
    requires |path| > 0 && !IsSpace(path[0])
    ensures ParseLine(EntryLine(name, path)) == Some((name, path))
  {
    var key := SubmodulePrefix + name + PathSuffix;
    var line := EntryLine(name, path);
    assert NoSpace(key) by {
      forall j | 0 <= j < |key|
        ensures !IsSpace(key[j])
      {
        if j < 10 {
          assert key[j] == SubmodulePrefix[j];
        } else if j < 10 + |name| {
          assert key[j] == name[j - 10];
        } else {
          assert key[j] == PathSuffix[j - 10 - |name|];
        }
      }
    }
    assert line == key + (" " + path);
    assert LeadCount(line) == 0 by {
      assert line[0] == 's';
    }
    assert !AllSpace(line) by {
      assert line[0] == 's';
    }
    SplitAtGap(line, key, path, SplitOnce(line));
    assert key[..10] == SubmodulePrefix;
    assert key[|key| - 5..] == PathSuffix;
    assert key[10..|key| - 5] == name;
  }

  /** A line made of a word, one space and a path is split into exactly that word and path. */
  lemma SplitAtGap(line: string, key: string, path: string, parts: seq<string>)
    requires line == key + (" " + path)
    requires NoSpace(key) && |path| > 0 && !IsSpace(path[0])
    requires 0 < |parts| <= 2 && NoSpace(parts[0])
    requires forall p :: p in parts ==> |p| > 0 && !IsSpace(p[0])
    requires PlacedAt(line, 0, parts)
    ensures parts == [key, path]
  {
    assert line[|key|] == ' ';
    assert forall j :: 0 <= j < |key| ==> line[j] == key[j];
    assert parts[0] == key;
    assert line[|key| + 1] == path[0];
    assert parts[1] in parts;
    var m := |line| - |parts[1]|;
    assert m == |key| + 1;
    assert parts[1] == line[m..] == path;
  }

  /** A parsed `git config` listing with one line per submodule is read back as that listing. */
  function Listing(entries: Dict<string>): string
    decreases |entries|
  {
    if |entries| == 0 then ""
    else if |entries| == 1 then EntryLine(entries[0].0, entries[0].1)
    else EntryLine(entries[0].0, entries[0].1) + "\n" + Listing(entries[1..])
  }

  /** The lines of the listing. */
  function Lines(entries: Dict<string>): (lines: seq<string>)
    ensures |lines| == |entries|
    decreases |entries|
  {
    if |entries| == 0 then [] else [EntryLine(entries[0].0, entries[0].1)] + Lines(entries[1..])
  }

  predicate PlainEntries(entries: Dict<string>) {
    forall i :: 0 <= i < |entries| ==> NoSpace(entries[i].0) && IsPlainLine(entries[i].1)
  }

  /** Round trip: the listing git prints for a set of submodules is parsed back to exactly those
      submodules, in the same order. */
  lemma GetSubmodulesListing(entries: Dict<string>)
    requires HasUniqueKeys(entries)
    requires PlainEntries(entries)
    ensures GetSubmodules(Listing(entries)) == entries
  {
    var s := Listing(entries);
    ListingEnds(entries);
    StripUntouched(s);
    ListingLines(entries);
    ParseListing([], entries);
  }

  lemma {:induction false} ListingEnds(entries: Dict<string>)
    requires PlainEntries(entries)
    ensures |entries| > 0 ==> |Listing(entries)| > 0 && Listing(entries)[0] == 's'
    ensures |entries| > 0 ==> !IsSpace(Listing(entries)[|Listing(entries)| - 1])
    decreases |entries|
  {
    if |entries| > 1 {
      ListingEnds(entries[1..]);
    }
  }

  lemma {:induction false} ListingLines(entries: Dict<string>)
    requires PlainEntries(entries)
    ensures SplitLines(Listing(entries))
            == Lines(entries)
    decreases |entries|
  {
    if |entries| > 0 {
      var line := EntryLine(entries[0].0, entries[0].1);
      EntryLineAvoids(entries[0].0, entries[0].1);
      if |entries| == 1 {
        FindAbsent(line, LineBreaks);
        assert line[..|line|] == line;
      } else {
        ListingLines(entries[1..]);
        SplitLinesCons(line, Listing(entries[1..]));
      }
    }
  }

  lemma EntryLineAvoids(name: string, path: string)
    requires NoSpace(name) && Avoids(path, LineBreaks)
    ensures Avoids(EntryLine(name, path), LineBreaks)
  {
    var line := EntryLine(name, path);
    forall j | 0 <= j < |line|
      ensures line[j] !in LineBreaks
    {
      if j < 10 {
        assert line[j] == SubmodulePrefix[j];
      } else if j < 10 + |name| {
        assert line[j] == name[j - 10];
      } else if j < 16 + |name| {
        assert line[j] in ".path ";
      } else {
        assert line[j] == path[j - 16 - |name|];
      }
    }
  }

  lemma {:induction false} ParseListing(acc: Dict<string>, entries: Dict<string>)
    requires HasUniqueKeys(acc + entries)
    requires PlainEntries(entries)
    ensures ParseLines(acc, Lines(entries)) == acc + entries
    decreases |entries|
  {
    if |entries| == 0 {
      assert acc + entries == acc;
    } else {
      var e := entries[0];
      var rest := entries[1..];
      ParseEntryLine(e.0, e.1);
      FreshHead(acc, entries);
      PutFresh(acc, e.0, e.1);
      ParseListing(acc + [e], rest);
    }
  }

  lemma FreshHead(acc: Dict<string>, entries: Dict<string>)
    requires |entries| > 0 && HasUniqueKeys(acc + entries)
    ensures entries[0].0 !in Keys(acc)
    ensures (acc + [entries[0]]) + entries[1..] == acc + entries
    ensures HasUniqueKeys((acc + [entries[0]]) + entries[1..])
  {
    var all := acc + entries;
    forall j | 0 <= j < |acc|
      ensures acc[j].0 != entries[0].0
    {
      assert all[j] == acc[j] && all[|acc|] == entries[0];
    }
    assert (acc + [entries[0]]) + entries[1..] == all;
  }

  /** `fetch_tags`: the lines of `git tag | sort -Vr` (newest first) and the first of them as the
      latest tag, or `"none"` when there are no tags. */
  function LatestTag(tags: seq<string>): string {
    if |tags| > 0 then tags[0] else "none"
  }

  /** Round trip for `fetch_tags`: when git prints the tags one per line, newest first, they are
      read back in that order, and the latest tag is the first of them, or "none" when there are
      none. */
  lemma FetchTagsListing(tags: seq<string>, describeOutput: string)
    requires forall i :: 0 <= i < |tags| ==> IsPlainLine(tags[i])
    ensures FetchTags(Join(tags, '\n'), describeOutput).recent == tags
    ensures FetchTags(Join(tags, '\n'), describeOutput).latest == if |tags| > 0 then tags[0] else "none"
  {
    var out := Join(tags, '\n');
    TagListingEnds(tags);
    StripUntouched(out);
    TagListingLines(tags);
    FetchTagsUnstripped(out, describeOutput);
  }

  lemma FetchTagsUnstripped(tagOutput: string, describeOutput: string)
    requires Strip(tagOutput) == tagOutput
    ensures FetchTags(tagOutput, describeOutput).recent == SplitLines(tagOutput)
    ensures FetchTags(tagOutput, describeOutput).latest == LatestTag(SplitLines(tagOutput))
  {
  }

  lemma {:induction false} TagListingEnds(tags: seq<string>)
    requires forall i :: 0 <= i < |tags| ==> IsPlainLine(tags[i])
    ensures |tags| > 0 ==> |Join(tags, '\n')| > 0 && !IsSpace(Join(tags, '\n')[0])
    ensures |tags| > 0 ==> !IsSpace(Join(tags, '\n')[|Join(tags, '\n')| - 1])
    decreases |tags|
  {
    if |tags| > 1 {
      TagListingEnds(tags[1..]);
      assert tags[1..][0] == tags[1];
    }
  }

  lemma {:induction false} TagListingLines(tags: seq<string>)
    requires forall i :: 0 <= i < |tags| ==> IsPlainLine(tags[i])
    ensures SplitLines(Join(tags, '\n')) == tags
    decreases |tags|
  {
    if |tags| == 1 {
      FindAbsent(tags[0], LineBreaks);
      assert tags[0][..|tags[0]|] == tags[0];
    } else if |tags| > 1 {
      TagListingLines(tags[1..]);
      SplitLinesCons(tags[0], Join(tags[1..], '\n'));
      assert [tags[0]] + tags[1..] == tags;
    }
  }

  /** The three results of `fetch_tags`, from the outputs of `git tag | sort -Vr` and of
      `git describe --tags --exact-match || echo 'none'` (both stripped by `run`). */
  datatype Tags = Tags(recent: seq<string>, current: string, latest: string)

  function FetchTags(tagOutput: string, describeOutput: string): (r: Tags)
    ensures r.recent == SplitLines(Strip(tagOutput))
    ensures r.current == Strip(describeOutput)
    ensures r.latest == "none" <==> AllSpace(tagOutput) || r.recent[0] == "none"
    ensures r.latest != "none" ==> r.latest in r.recent
  {
    var tags := SplitLines(Strip(tagOutput));
    Tags(tags, Strip(describeOutput), LatestTag(tags))
  }

  /** `get_latest_tag`: the stripped first line of the tag list, or `"0.0.0"` when that is empty. */
  function GetLatestTag(output: string): (tag: string)
    ensures tag == "0.0.0" <==> AllSpace(output) || Strip(output) == "0.0.0"
    ensures !AllSpace(output) ==> tag == Strip(output)
    ensures |tag| > 0 && !IsSpace(tag[0])
  {
    var t := Strip(output);
    if t == "" then "0.0.0" else t
  }
}

=== FILE: helm.dfy ===
/** `relsync/helm.py`: bumps inferred from the versions recorded in the parent chart's
    dependencies (`compute_subchart_bumps_from_parent`), the status built from them
    (`get_current_status_from_parent_chart`) and `bump_chart_version`. */
module Helm {
  import opened Wrappers
  import opened Text
  import opened Dict
  import opened Bumps
  import opened SemVer
  import opened Charts
  import opened Distribution

  // ----- dep_versions -----

  /** Reference definition: the version of the last dependency called `name`. */
  function LastVersion(deps: seq<Dependency>, name: string): Option<string>
    decreases |deps|
  {
    if |deps| == 0 then None
    else
      var later := LastVersion(deps[1..], name);
      if later.Some? then later
      else if deps[0].name == name then deps[0].version
      else None
  }

  predicate AllVersioned(deps: seq<Dependency>) {
    forall i :: 0 <= i < |deps| ==> deps[i].version.Some?
  }

  /** The comprehension `{dep["name"]: dep["version"] for dep in deps}` continued from `acc`. */
  lemma AllVersionedTail(deps: seq<Dependency>)
    requires |deps| > 0 && deps[0].version.Some?
    ensures AllVersioned(deps) <==> AllVersioned(deps[1..])
  {
    if AllVersioned(deps[1..]) {
      forall i | 0 <= i < |deps|
        ensures deps[i].version.Some?
      {
        if i > 0 {
          assert deps[i] == deps[1..][i - 1];
        }
      }
    }
  }

  function DepVersionsFrom(acc: Dict<string>, deps: seq<Dependency>): (r: Result<Dict<string>>)
    ensures r.Ok? <==> AllVersioned(deps)
    ensures r.Err? ==> r.error == MissingKey("version")
    decreases |deps|
  {
    if |deps| == 0 then Ok(acc)
    else if deps[0].version.None? then Err(MissingKey("version"))
    else
      var r := DepVersionsFrom(Put(acc, deps[0].name, deps[0].version.value), deps[1..]);
      AllVersionedTail(deps);
      r
  }

  lemma {:induction false} DepVersionsFromGet(acc: Dict<string>, deps: seq<Dependency>, name: string)
    requires AllVersioned(deps)
    ensures Get(DepVersionsFrom(acc, deps).value, name)
            == if LastVersion(deps, name).Some? then LastVersion(deps, name) else Get(acc, name)
    decreases |deps|
  {
    if |deps| > 0 {
      DepVersionsFromGet(Put(acc, deps[0].name, deps[0].version.value), deps[1..], name);
    }
  }

  lemma {:induction false} DepVersionsFromUnique(acc: Dict<string>, deps: seq<Dependency>)
    requires AllVersioned(deps) && HasUniqueKeys(acc)
    ensures HasUniqueKeys(DepVersionsFrom(acc, deps).value)
    decreases |deps|
  {
    if |deps| > 0 {
      DepVersionsFromUnique(Put(acc, deps[0].name, deps[0].version.value), deps[1..]);
    }
  }

  /** `dep_versions`: each dependency name with the version of its last entry; a dependency
      without a `version` key raises `KeyError`. */
  function DepVersions(deps: seq<Dependency>): (r: Result<Dict<string>>)
    ensures r.Ok? <==> AllVersioned(deps)
    ensures r.Err? ==> r.error == MissingKey("version")
    ensures r.Ok? ==> HasUniqueKeys(r.value)
    ensures r.Ok? ==> forall name :: Get(r.value, name) == LastVersion(deps, name)
  {
    var r := DepVersionsFrom([], deps);
    if r.Ok? then
      DepVersionsFacts(deps);
      r
    else r
  }

  lemma DepVersionsFacts(deps: seq<Dependency>)
    requires AllVersioned(deps)
    ensures HasUniqueKeys(DepVersionsFrom([], deps).value)
    ensures forall name :: Get(DepVersionsFrom([], deps).value, name) == LastVersion(deps, name)
  {
    DepVersionsFromUnique([], deps);
    forall name
      ensures Get(DepVersionsFrom([], deps).value, name) == LastVersion(deps, name)
    {
      DepVersionsFromGet([], deps, name);
    }
  }

  // ----- compute_subchart_bumps_from_parent -----

  /** The bump of one submodule: `version_bump(parent_dep_version, current_sub_version)` when
      both are present and non-empty, otherwise no bump. */
  function SubchartBump(parentDep: Option<string>, current: Option<string>): (r: Result<Option<Bump>>)
    ensures !(Truthy(parentDep) && Truthy(current)) ==> r == Ok(None)
    ensures Truthy(parentDep) && Truthy(current) ==> r == VersionBump(parentDep.value, current.value)
  {
    if Truthy(parentDep) && Truthy(current) then VersionBump(parentDep.value, current.value) else Ok(None)
  }

  /** A submodule whose chart is one `bump_version` step past the recorded dependency is
      reported with exactly that bump. */
  lemma SubchartBumpOfBumped(recorded: string, b: Bump)
    requires ParseVersion(recorded).Ok?
    ensures BumpVersion(recorded, Some(Name(b))).Ok?
    ensures SubchartBump(Some(recorded), Some(BumpVersion(recorded, Some(Name(b))).value)) == Ok(Some(b))
  {
    BumpRoundTrip(recorded, b);
    var next := BumpVersion(recorded, Some(Name(b))).value;
    MatchNonEmpty(recorded);
    MatchNonEmpty(next);
  }

  /** A submodule still at the recorded version is not bumped. */
  lemma SubchartBumpUnchanged(recorded: string)
    requires ParseVersion(recorded).Ok?
    ensures SubchartBump(Some(recorded), Some(recorded)) == Ok(None)
  {
    VersionBumpSelf(recorded);
  }

  /** `os.path.join(path, submodule_chart_path_overrides.get(name))`; without an override the
      join raises `TypeError`. */
  function SubChartPath(subCharts: Dict<string>, name: string, path: string): (r: Result<string>)
    ensures r.Err? <==> name !in Keys(subCharts)
    ensures r.Err? ==> r.error == MissingChartPath(name)
    ensures r.Ok? ==> r.value == JoinPath(path, Get(subCharts, name).value)
  {
    match Get(subCharts, name)
    case None => Err(MissingChartPath(name))
    case Some(rel) => Ok(JoinPath(path, rel))
  }

  /** The entry of one submodule: its chart path, then the bump against the recorded version. */
  function EntryBump(files: Files, parentDep: Option<string>, subCharts: Dict<string>, name: string, path: string)
    : (r: Result<Option<Bump>>)
    ensures name !in Keys(subCharts) ==> r == Err(MissingChartPath(name))
    ensures name in Keys(subCharts) ==>
              r == SubchartBump(parentDep, ChartVersion(files, JoinPath(path, Get(subCharts, name).value)))
  {
    match SubChartPath(subCharts, name, path)
    case Err(e) => Err(e)
    case Ok(chartPath) => SubchartBump(parentDep, ChartVersion(files, chartPath))
  }

  /** The loop over the submodules, in order; the first failure ends it. */
  function BumpsFrom(files: Files, depVersions: Dict<string>, subs: Dict<string>, subCharts: Dict<string>)
    : (r: Result<Dict<Option<Bump>>>)
    ensures r.Ok? ==> Keys(r.value) == Keys(subs)
    ensures r.Ok? ==> forall i :: 0 <= i < |subs| ==>
              EntryBump(files, Get(depVersions, subs[i].0), subCharts, subs[i].0, subs[i].1) == Ok(r.value[i].1)
    ensures r.Err? <==> exists i :: 0 <= i < |subs|
                         && EntryBump(files, Get(depVersions, subs[i].0), subCharts, subs[i].0, subs[i].1).Err?
  {
    TryMap(subs, (name, path) => EntryBump(files, Get(depVersions, name), subCharts, name, path))
  }

  /** `compute_subchart_bumps_from_parent`: `{}` when the parent chart does not exist, otherwise
      one entry per submodule, in submodule order. */
  function ComputeSubchartBumps(files: Files, parentPath: string, subs: Dict<string>, subCharts: Dict<string>)
    : (r: Result<Dict<Option<Bump>>>)
    ensures parentPath !in files ==> r == Ok([])
    ensures parentPath in files && !AllVersioned(Dependencies(files[parentPath])) ==> r == Err(MissingKey("version"))
    ensures r.Err? <==>
              && parentPath in files
              && (|| !AllVersioned(Dependencies(files[parentPath]))
                  || exists i :: 0 <= i < |subs| &&
                       EntryBump(files, LastVersion(Dependencies(files[parentPath]), subs[i].0), subCharts,
                                 subs[i].0, subs[i].1).Err?)
    ensures parentPath in files && r.Ok? ==> Keys(r.value) == Keys(subs)
    ensures parentPath in files && r.Ok? ==> forall i :: 0 <= i < |subs| ==>
              EntryBump(files, LastVersion(Dependencies(files[parentPath]), subs[i].0), subCharts, subs[i].0, subs[i].1)
                == Ok(r.value[i].1)
  {
    if parentPath !in files then Ok([])
    else
      var deps := Dependencies(files[parentPath]);
      match DepVersions(deps)
      case Err(e) => Err(e)
      case Ok(dv) => BumpsFrom(files, dv, subs, subCharts)
  }

  // ----- get_current_status_from_parent_chart -----

  /** `repo_bump`: "minor" when the dominant bump is major and "patch" in every other case, no
      bump included. */
  function ParentBump(dominant: Option<Bump>): (b: Bump)
    ensures b == Minor <==> dominant == Some(Major)
    ensures b != Major
  {
    if dominant == Some(Major) then Minor else Patch
  }

  /** The parent half of the status: the dominant submodule bump decides the label, and the
      suggested version is the bumped parent version, or the parent version itself when nothing
      was bumped. Bumping a parent chart without a version raises. */
  function ParentStatus(bumps: seq<Option<Bump>>, parentCurrent: Option<string>): (r: Result<ParentInfo>)
    ensures r.Err? <==> Dominant(bumps).Some? && (parentCurrent.None? || ParseVersion(parentCurrent.value).Err?)
    ensures r.Ok? ==> r.value.current == parentCurrent
    ensures r.Ok? ==> r.value.bump == Some(ParentBump(Dominant(bumps)))
    ensures Dominant(bumps).None? ==> r == Ok(ParentInfo(parentCurrent, parentCurrent, Some(Patch)))
    ensures Dominant(bumps).Some? && parentCurrent.Some? ==>
              (r.Ok? <==> ParseVersion(parentCurrent.value).Ok?)
    ensures Dominant(bumps).Some? && r.Ok? ==>
              && parentCurrent.Some? && r.value.suggested.Some?
              && BumpVersion(parentCurrent.value, Some(Name(ParentBump(Dominant(bumps))))) == Ok(r.value.suggested.value)
  {
    var dominant := Dominant(bumps);
    var repoBump := ParentBump(dominant);
    if dominant.None? then Ok(ParentInfo(parentCurrent, parentCurrent, Some(repoBump)))
    else if parentCurrent.None? then Err(NotAVersionString("version"))
    else
      match BumpVersion(parentCurrent.value, Some(Name(repoBump)))
      case Err(e) => Err(e)
      case Ok(v) => Ok(ParentInfo(parentCurrent, Some(v), Some(repoBump)))
  }

  /** The parent status depends only on which bumps occurred, not on the order of the submodules. */
  lemma ParentStatusPermutation(a: seq<Option<Bump>>, b: seq<Option<Bump>>, parentCurrent: Option<string>)
    requires multiset(a) == multiset(b)
    ensures ParentStatus(a, parentCurrent) == ParentStatus(b, parentCurrent)
  {
    MaxLevelPermutation(a, b);
  }

  /** A major submodule bump makes the parent a minor bump, with the minor number raised. */
  lemma MajorMakesParentMinor(bumps: seq<Option<Bump>>, parentCurrent: string)
    requires Some(Major) in bumps
    requires ParseVersion(parentCurrent).Ok?
    ensures ParentStatus(bumps, Some(parentCurrent)).Ok?
    ensures var t := ParseVersion(parentCurrent).value;
            ParentStatus(bumps, Some(parentCurrent)).value.bump == Some(Minor)
            && ParseVersion(ParentStatus(bumps, Some(parentCurrent)).value.suggested.value)
               == Ok(Triple(t.major, t.minor + 1, 0))
  {
    var k :| 0 <= k < |bumps| && bumps[k] == Some(Major);
    assert Level(bumps[k]) == 3;
    var v := BumpVersion(parentCurrent, Some("minor")).value;
    assert Name(Minor) == "minor";
    assert FromName("minor") == Some(Minor);
  }

  /** The update record of one submodule: its chart's name (falling back to the submodule name),
      its current chart version, the output of `git describe`, and its entry of the bump map. */
  function StatusUpdate(name: string, path: string, chart: Chart, describe: string, bumps: Dict<Option<Bump>>)
    : (u: Update)
    ensures u.path == path && u.currentTag == describe && u.currentVersion == chart.version
    ensures u.chartName == (if Truthy(chart.name) then chart.name else Some(name))
    ensures u.bump == (if name in Keys(bumps) then Get(bumps, name).value else None)
    ensures u.suggestedTag.None? && u.suggestedVersion.None? && u.latestTag.None? && u.recentTags == []
  {
    Update(path, Or(chart.name, Some(name)), describe, None, None, [], chart.version, None,
           Get(bumps, name).GetOr(None))
  }

  function StatusUpdates(files: Files, subs: Dict<string>, subCharts: Dict<string>,
                         describe: string -> string, bumps: Dict<Option<Bump>>)
    : (r: Result<Dict<Update>>)
    ensures r.Ok? ==> Keys(r.value) == Keys(subs)
    ensures r.Ok? ==> forall i :: 0 <= i < |subs| ==>
              var name := subs[i].0;
              name in Keys(subCharts) &&
              r.value[i].1 == StatusUpdate(name, subs[i].1, Load(files, JoinPath(subs[i].1, Get(subCharts, name).value)),
                                           describe(subs[i].1), bumps)
    ensures r.Err? <==> exists i :: 0 <= i < |subs| && subs[i].0 !in Keys(subCharts)
  {
    TryMap(subs, (name, path) =>
      match SubChartPath(subCharts, name, path)
      case Err(e) => Err(e)
      case Ok(chartPath) => Ok(StatusUpdate(name, path, Load(files, chartPath), describe(path), bumps)))
  }

  /** `get_current_status_from_parent_chart`: the bump map is computed first; then the per-
      submodule records and the parent record. `describe` is the output of `git describe` in a
      submodule's directory. */
  function GetCurrentStatusFromParentChart(files: Files, subs: Dict<string>, paths: ChartPaths,
                                           describe: string -> string)
    : (r: Result<(Dict<Update>, ParentInfo)>)
    ensures r.Err? <==>
              var bumps := ComputeSubchartBumps(files, paths.repoChart, subs, paths.submoduleCharts);
              || bumps.Err?
              || (exists i :: 0 <= i < |subs| && subs[i].0 !in Keys(paths.submoduleCharts))
              || ParentStatus(Values(bumps.value), ChartVersion(files, paths.repoChart)).Err?
    ensures r.Ok? ==> Keys(r.value.0) == Keys(subs)
    ensures r.Ok? ==> r.value.1.current == ChartVersion(files, paths.repoChart)
    ensures r.Ok? ==> r.value.1.bump.Some? && r.value.1.bump.value != Major
    ensures r.Ok? && paths.repoChart !in files ==> r.value.1 == ParentInfo(None, None, Some(Patch))
    ensures r.Ok? ==>
              var bumps := ComputeSubchartBumps(files, paths.repoChart, subs, paths.submoduleCharts);
              && bumps.Ok?
              && StatusUpdates(files, subs, paths.submoduleCharts, describe, bumps.value) == Ok(r.value.0)
              && ParentStatus(Values(bumps.value), ChartVersion(files, paths.repoChart)) == Ok(r.value.1)
  {
    match ComputeSubchartBumps(files, paths.repoChart, subs, paths.submoduleCharts)
    case Err(e) => Err(e)
    case Ok(bumps) =>
      match StatusUpdates(files, subs, paths.submoduleCharts, describe, bumps)
      case Err(e) => Err(e)
      case Ok(updates) =>
        assert paths.repoChart !in files ==> Dominant(Values(bumps)).None?;
        match ParentStatus(Values(bumps), ChartVersion(files, paths.repoChart))
        case Err(e) => Err(e)
        case Ok(parent) => Ok((updates, parent))
  }

  // ----- bump_chart_version -----

  /** `bump_chart_version`: the parent chart's version bumped by `bumpType`; when `updateChart` is
      set, the chart is written back with only `version` and `appVersion` changed. */
  function BumpChartVersion(files: Files, paths: ChartPaths, bumpType: Option<string>,
                            appVersion: Option<string>, updateChart: bool)
    : (r: Result<(string, Files)>)
    ensures r.Err? <==>
              || paths.repoChart !in files
              || files[paths.repoChart].version.None?
              || BumpVersion(files[paths.repoChart].version.value, bumpType).Err?
    ensures paths.repoChart !in files ==> r == Err(ChartNotFound)
    ensures paths.repoChart in files && files[paths.repoChart].version.None? ==> r == Err(MissingKey("version"))
    ensures r.Ok? ==> paths.repoChart in files && files[paths.repoChart].version.Some?
    ensures r.Ok? ==> BumpVersion(files[paths.repoChart].version.value, bumpType) == Ok(r.value.0)
    ensures r.Ok? && !updateChart ==> r.value.1 == files
    ensures r.Ok? ==> r.value.1.Keys == files.Keys
    ensures r.Ok? ==> forall p :: p in files && p != paths.repoChart ==> r.value.1[p] == files[p]
    ensures r.Ok? && updateChart ==>
              var before := files[paths.repoChart];
              var after := r.value.1[paths.repoChart];
              && after.version == Some(r.value.0)
              && after.appVersion == appVersion
              && after.name == before.name
              && after.dependencies == before.dependencies
  {
    var chartFile := paths.repoChart;
    if chartFile !in files then Err(ChartNotFound)
    else
      var chart := files[chartFile];
      if chart.version.None? then Err(MissingKey("version"))
      else
        match BumpVersion(chart.version.value, bumpType)
        case Err(e) => Err(e)
        case Ok(v) =>
          if updateChart then Ok((v, files[chartFile := chart.(version := Some(v), appVersion := appVersion)]))
          else Ok((v, files))
  }

  /** `get_chart_version` on the chart `bump_chart_version` wrote reads back the new version, and
      every other chart still reads as before. */
  lemma BumpedVersionReadsBack(files: Files, paths: ChartPaths, bumpType: Option<string>, appVersion: Option<string>)
    requires BumpChartVersion(files, paths, bumpType, appVersion, true).Ok?
    ensures var (v, written) := BumpChartVersion(files, paths, bumpType, appVersion, true).value;
            && ChartVersion(written, paths.repoChart) == Some(v)
            && forall p :: p != paths.repoChart ==> ChartVersion(written, p) == ChartVersion(files, p)
  {
  }
}

=== FILE: semver.dfy ===
/** Semantic versions as `relsync/semver.py` reads and writes them: the `semver_regex` recogniser,
    `parse_version`, `get_version_string`, `version_bump` and `bump_version`. */
module SemVer {
  import opened Wrappers
  import opened Text
  import opened Bumps
  import Decimal

  /** The named groups of one match of the recogniser. Identifier lists are the dot-separated
      pieces of the `prerelease` and `buildmetadata` groups. */
  datatype Version = Version(
    prefixed: bool,
    major: nat,
    minor: nat,
    patch: nat,
    prerelease: Option<seq<string>>,
    build: Option<seq<string>>)

  /** The `(major, minor, patch)` tuple `parse_version` returns by default. */
  datatype Triple = Triple(major: nat, minor: nat, patch: nat)

  /** The optional `group` argument of `parse_version`. */
  datatype Group = MajorGroup | MinorGroup | PatchGroup | PrereleaseGroup | BuildGroup

  /** What `parse_version` returns for each choice of group. */
  datatype Component = Number(n: nat) | Label(text: Option<string>) | Core(t: Triple)

  // ----- The grammar -----

  /** The character class `[0-9a-zA-Z-]`. */
  predicate IsIdentChar(c: char) {
    Decimal.IsDigit(c) || 'a' <= c <= 'z' || 'A' <= c <= 'Z' || c == '-'
  }

  predicate AllIdentChars(s: string) {
    forall j :: 0 <= j < |s| ==> IsIdentChar(s[j])
  }

  /** A numeric field or numeric identifier: `0|[1-9]\d*`. */
  predicate IsNumeric(s: string) {
    Decimal.IsCanonical(s)
  }

  /** A pre-release identifier: `0|[1-9]\d*|\d*[a-zA-Z-][0-9a-zA-Z-]*`, that is, a numeral without
      leading zeros or a non-empty run of identifier characters that is not all digits. */
  predicate IsPrereleaseIdentifier(s: string) {
    IsNumeric(s) || (AllIdentChars(s) && !Decimal.AllDigits(s))
  }

  /** A build identifier: `[0-9a-zA-Z-]+`. */
  predicate IsBuildIdentifier(s: string) {
    |s| > 0 && AllIdentChars(s)
  }

  predicate ValidPrerelease(ids: seq<string>) {
    |ids| > 0 && forall id :: id in ids ==> IsPrereleaseIdentifier(id)
  }

  predicate ValidBuild(ids: seq<string>) {
    |ids| > 0 && forall id :: id in ids ==> IsBuildIdentifier(id)
  }

  /** The versions the recogniser can produce. */
  predicate WellFormed(v: Version) {
    && (v.prerelease.Some? ==> ValidPrerelease(v.prerelease.value))
    && (v.build.Some? ==> ValidBuild(v.build.value))
  }

  function TripleOf(v: Version): Triple {
    Triple(v.major, v.minor, v.patch)
  }

  /** The version `M.m.p` with no prefix, pre-release or build. */
  function Clean(t: Triple): Version {
    Version(false, t.major, t.minor, t.patch, None, None)
  }

  /** `"M.m.p"`, as `'.'.join(str(x) for x in (M, m, p))`. */
  function CoreString(t: Triple): string {
    Join([Decimal.Render(t.major), Decimal.Render(t.minor), Decimal.Render(t.patch)], '.')
  }

  /** `mark` followed by the dot-joined identifiers, or nothing. */
  function Suffix(mark: char, ids: Option<seq<string>>): string {
    if ids.Some? then [mark] + Join(ids.value, '.') else ""
  }

  /** The text a version is written as: the language of the recogniser is exactly the set of
      these strings for well-formed versions (see `MatchIffGrammar`). */
  function Render(v: Version): string {
    if v.prefixed then "v" + Body(v) else Body(v)
  }

  /** The numeric fields followed by the pre-release and build suffixes. */
  function Body(v: Version): string {
    CoreString(TripleOf(v)) + Tail(v)
  }

  /** The pre-release and build suffixes of a version's text. */
  function Tail(v: Version): string {
    Suffix('-', v.prerelease) + Suffix('+', v.build)
  }

  // ----- The recogniser -----

  /** The text after the first `-` and before the first `+` that follows it: the `prerelease` group. */
  function PrereleaseText(tail: string): Option<string> {
    if |tail| > 0 && tail[0] == '-' then
      var t := tail[1..];
      Some(t[..Find(t, {'+'})])
    else None
  }

  /** The text after the first `+`: the `buildmetadata` group. */
  function BuildText(tail: string): Option<string> {
    if |tail| == 0 then None
    else if tail[0] == '+' then Some(tail[1..])
    else
      var t := tail[1..];
      var j := Find(t, {'+'});
      if j < |t| then Some(t[j + 1..]) else None
  }

  function SplitIds(text: Option<string>): Option<seq<string>> {
    if text.Some? then Some(Split(text.value, '.')) else None
  }

  /** One anchored match of `semver_regex` against the whole of `s`: an optional `v`, then the rest. */
  function MatchExact(s: string): Option<Version> {
    if |s| > 0 && s[0] == 'v' then MatchRest(true, s[1..]) else MatchRest(false, s)
  }

  /** The numeric fields end at the first `-` or `+`; the rest is the pre-release and build tail. */
  function MatchRest(prefixed: bool, rest: string): Option<Version> {
    var i := Find(rest, {'-', '+'});
    MatchParts(prefixed, rest[..i], rest[i..])
  }

  /** Exactly three numeric fields, and valid identifier lists in the tail: the pre-release runs
      from a `-` to the first `+`, the build metadata is whatever follows that `+`. */
  function MatchParts(prefixed: bool, core: string, tail: string): Option<Version> {
    var fields := Split(core, '.');
    var pre := SplitIds(PrereleaseText(tail));
    var build := SplitIds(BuildText(tail));
    if && |fields| == 3
       && IsNumeric(fields[0]) && IsNumeric(fields[1]) && IsNumeric(fields[2])
       && (pre.Some? ==> ValidPrerelease(pre.value))
       && (build.Some? ==> ValidBuild(build.value))
    then
      Some(Version(prefixed, Decimal.Value(fields[0]), Decimal.Value(fields[1]),
                   Decimal.Value(fields[2]), pre, build))
    else None
  }

  /** `semver_regex.match(s)`. Python's `$` also matches just before a final newline, so a
      version followed by one `"\n"` is accepted too. */
  function Match(s: string): Option<Version> {
    var m := MatchExact(s);
    if m.Some? then m
    else if |s| > 0 && s[|s| - 1] == '\n' then MatchExact(s[..|s| - 1])
    else None
  }

  // ----- Facts about the rendered text -----

  lemma IdentCharsAvoid(s: string, cs: set<char>)
    requires AllIdentChars(s)
    requires forall c :: c in cs ==> !IsIdentChar(c)
    ensures Avoids(s, cs)
  {
  }

  lemma NumericAvoids(s: string)
    requires IsNumeric(s)
    ensures AllIdentChars(s)
    ensures Avoids(s, {'.'}) && Avoids(s, {'-', '+', '\n'})
  {
  }

  lemma AvoidsConcat(a: string, b: string, cs: set<char>)
    requires Avoids(a, cs) && Avoids(b, cs)
    ensures Avoids(a + b, cs)
  {
    forall j | 0 <= j < |a + b|
      ensures (a + b)[j] !in cs
    {
      if j < |a| {
        assert (a + b)[j] == a[j];
      } else {
        assert (a + b)[j] == b[j - |a|];
      }
    }
  }

  /** Cutting `a + b` at the first character of `cs` gives back `a` and `b` when `a` has no such
      character and `b` is empty or starts with one. */
  lemma CutAtFirst(a: string, b: string, cs: set<char>)
    requires Avoids(a, cs)
    requires |b| > 0 ==> b[0] in cs
    ensures Find(a + b, cs) == |a|
    ensures (a + b)[..|a|] == a && (a + b)[|a|..] == b
  {
    FindAfter(a, b, cs);
  }

  /** The numeric fields contain no separator, no `-`, `+` or newline, and start with a digit. */
  lemma CoreStringFacts(t: Triple)
    ensures |CoreString(t)| > 0 && Decimal.IsDigit(CoreString(t)[0])
    ensures Avoids(CoreString(t), {'-', '+', '\n'})
    ensures Split(CoreString(t), '.') == [Decimal.Render(t.major), Decimal.Render(t.minor), Decimal.Render(t.patch)]
  {
    var parts := [Decimal.Render(t.major), Decimal.Render(t.minor), Decimal.Render(t.patch)];
    forall p | p in parts
      ensures Avoids(p, {'.'}) && Avoids(p, {'-', '+', '\n'})
    {
      NumericAvoids(p);
    }
    SplitJoin(parts, '.');
    JoinAvoids(parts, '.', {'-', '+', '\n'});
    CoreStringHead(t);
  }

  lemma CoreStringHead(t: Triple)
    ensures |CoreString(t)| > 0 && Decimal.IsDigit(CoreString(t)[0])
  {
    var parts := [Decimal.Render(t.major), Decimal.Render(t.minor), Decimal.Render(t.patch)];
    var first := parts[0];
    assert |first| > 0 && Decimal.IsDigit(first[0]);
    assert CoreString(t) == first + (['.'] + Join(parts[1..], '.'));
  }

  lemma IdentifiersAvoid(ids: seq<string>, pre: bool)
    requires if pre then ValidPrerelease(ids) else ValidBuild(ids)
    ensures Avoids(Join(ids, '.'), {'+', '\n'})
    ensures Split(Join(ids, '.'), '.') == ids
  {
    forall id | id in ids
      ensures Avoids(id, {'.'}) && Avoids(id, {'+', '\n'})
    {
      assert AllIdentChars(id) by {
        if IsNumeric(id) {
          NumericAvoids(id);
        }
      }
      IdentCharsAvoid(id, {'.'});
      IdentCharsAvoid(id, {'+', '\n'});
    }
    JoinAvoids(ids, '.', {'+', '\n'});
    SplitJoin(ids, '.');
  }

  /** The rendered text of a well-formed version never contains a newline. */
  lemma RenderHasNoNewline(v: Version)
    requires WellFormed(v)
    ensures Avoids(Render(v), {'\n'})
  {
    CoreStringFacts(TripleOf(v));
    var pre := Suffix('-', v.prerelease);
    var build := Suffix('+', v.build);
    if v.prerelease.Some? {
      IdentifiersAvoid(v.prerelease.value, true);
      AvoidsConcat("-", Join(v.prerelease.value, '.'), {'\n'});
    }
    if v.build.Some? {
      IdentifiersAvoid(v.build.value, false);
      AvoidsConcat("+", Join(v.build.value, '.'), {'\n'});
    }
    AvoidsConcat(pre, build, {'\n'});
    AvoidsConcat(CoreString(TripleOf(v)), Tail(v), {'\n'});
    if v.prefixed {
      AvoidsConcat("v", Body(v), {'\n'});
    }
  }

  // ----- The grammar theorem -----

  /** The build group is read back from its rendered suffix. */
  lemma BuildRoundTrip(build: Option<seq<string>>)
    requires build.Some? ==> ValidBuild(build.value)
    ensures SplitIds(BuildText(Suffix('+', build))) == build
  {
    if build.Some? {
      IdentifiersAvoid(build.value, false);
      assert Suffix('+', build)[1..] == Join(build.value, '.');
    }
  }

  /** The pre-release and build groups are read back from the rendered suffixes. */
  lemma TailRoundTrip(v: Version)
    requires WellFormed(v)
    ensures |Tail(v)| > 0 ==> Tail(v)[0] in {'-', '+'}
    ensures SplitIds(PrereleaseText(Tail(v))) == v.prerelease
    ensures SplitIds(BuildText(Tail(v))) == v.build
  {
    var b := Suffix('+', v.build);
    BuildRoundTrip(v.build);
    if v.prerelease.Some? {
      var ids := v.prerelease.value;
      IdentifiersAvoid(ids, true);
      var j := Join(ids, '.');
      DropHead('-', j, b);
      CutAtFirst(j, b, {'+'});
      if v.build.Some? {
        DropAfter(j, b);
      }
    } else {
      assert Tail(v) == b;
    }
  }

  lemma DropHead(c: char, x: string, y: string)
    ensures |([c] + x) + y| > 0 && (([c] + x) + y)[0] == c
    ensures (([c] + x) + y)[1..] == x + y
  {
  }

  lemma DropAfter(x: string, y: string)
    requires |y| > 0
    ensures (x + y)[|x| + 1..] == y[1..]
  {
  }

  /** The groups are read back from the rendered fields and tail. */
  lemma MatchPartsRender(v: Version)
    requires WellFormed(v)
    ensures MatchParts(v.prefixed, CoreString(TripleOf(v)), Tail(v)) == Some(v)
  {
    CoreStringFacts(TripleOf(v));
    TailRoundTrip(v);
    Decimal.ValueOfRender(v.major);
    Decimal.ValueOfRender(v.minor);
    Decimal.ValueOfRender(v.patch);
  }

  /** The fields end where the tail begins, so the middle layer sees the rendered parts. */
  lemma MatchRestBody(v: Version)
    requires WellFormed(v)
    ensures MatchRest(v.prefixed, Body(v)) == Some(v)
  {
    var core := CoreString(TripleOf(v));
    CoreStringFacts(TripleOf(v));
    TailRoundTrip(v);
    CutAtFirst(core, Tail(v), {'-', '+'});
    MatchPartsRender(v);
  }

  /** Completeness: every well-formed version's text is recognised, with the same groups. */
  lemma MatchExactRender(v: Version)
    requires WellFormed(v)
    ensures MatchExact(Render(v)) == Some(v)
  {
    MatchRestBody(v);
    CoreStringFacts(TripleOf(v));
    if v.prefixed {
      DropHead('v', [], Body(v));
      assert "v" + Body(v) == ['v'] + [] + Body(v);
    } else {
      assert Body(v)[0] == CoreString(TripleOf(v))[0];
    }
  }

  /** Soundness: whatever is recognised is a well-formed version written exactly as `s`. */
  lemma RenderMatchExact(s: string)
    requires MatchExact(s).Some?
    ensures WellFormed(MatchExact(s).value)
    ensures Render(MatchExact(s).value) == s
  {
    var v := MatchExact(s).value;
    var rest := if |s| > 0 && s[0] == 'v' then s[1..] else s;
    var i := Find(rest, {'-', '+'});
    RenderMatchParts(v.prefixed, rest[..i], rest[i..]);
    Rejoin(rest, i);
    assert Body(v) == rest;
    if v.prefixed {
      Rejoin(s, 1);
      assert s[..1] == "v";
    }
  }

  lemma Rejoin(x: string, i: nat)
    requires i <= |x|
    ensures x[..i] + x[i..] == x
  {
  }

  /** The tail is the concatenation of the suffixes of the groups read from it. */
  lemma TailOfParts(tail: string)
    requires |tail| > 0 ==> tail[0] in {'-', '+'}
    ensures Suffix('-', SplitIds(PrereleaseText(tail))) + Suffix('+', SplitIds(BuildText(tail))) == tail
  {
    if |tail| > 0 && tail[0] == '-' {
      TailOfDash(tail);
    } else if |tail| > 0 {
      var b := tail[1..];
      assert BuildText(tail) == Some(b);
      JoinSplit(b, '.');
      assert tail == ['+'] + b;
    }
  }

  lemma TailOfDash(tail: string)
    requires |tail| > 0 && tail[0] == '-'
    ensures Suffix('-', SplitIds(PrereleaseText(tail))) + Suffix('+', SplitIds(BuildText(tail))) == tail
  {
    var t := tail[1..];
    var j := Find(t, {'+'});
    var p := t[..j];
    assert PrereleaseText(tail) == Some(p);
    JoinSplit(p, '.');
    var x := Suffix('-', SplitIds(PrereleaseText(tail)));
    assert x == ['-'] + p;
    if j < |t| {
      var b := t[j + 1..];
      assert BuildText(tail) == Some(b);
      JoinSplit(b, '.');
      var y := Suffix('+', SplitIds(BuildText(tail)));
      assert y == ['+'] + b;
      Glue(tail, j);
    } else {
      assert BuildText(tail) == None;
      assert x == tail;
    }
  }

  /** `-pre+build` reassembled from its pieces. */
  lemma Glue(tail: string, j: nat)
    requires |tail| > 0 && tail[0] == '-' && j < |tail| - 1 && tail[j + 1] == '+'
    ensures (['-'] + tail[1..][..j]) + (['+'] + tail[1..][j + 1..]) == tail
  {
  }

  /** Soundness of the group layer: what it accepts is well-formed and renders as its input. */
  lemma RenderMatchParts(prefixed: bool, core: string, tail: string)
    requires MatchParts(prefixed, core, tail).Some?
    requires |tail| > 0 ==> tail[0] in {'-', '+'}
    ensures WellFormed(MatchParts(prefixed, core, tail).value)
    ensures MatchParts(prefixed, core, tail).value.prefixed == prefixed
    ensures CoreString(TripleOf(MatchParts(prefixed, core, tail).value)) == core
    ensures Tail(MatchParts(prefixed, core, tail).value) == tail
  {
    var fields := Split(core, '.');
    Decimal.RenderOfValue(fields[0]);
    Decimal.RenderOfValue(fields[1]);
    Decimal.RenderOfValue(fields[2]);
    JoinSplit(core, '.');
    assert fields == [fields[0], fields[1], fields[2]];
    TailOfParts(tail);
  }

  /** `semver_regex.match(s)` succeeds exactly on the texts of well-formed versions, optionally
      followed by one newline; `"1.2"` and `"1.02.0"` are therefore rejected. */
  lemma MatchIffGrammar(s: string)
    ensures Match(s).Some? <==>
            exists v :: WellFormed(v) && (s == Render(v) || s == Render(v) + "\n")
  {
    if Match(s).Some? {
      if MatchExact(s).Some? {
        RenderMatchExact(s);
      } else {
        var s' := s[..|s| - 1];
        RenderMatchExact(s');
        assert s == s' + "\n";
      }
    }
    if exists v :: WellFormed(v) && (s == Render(v) || s == Render(v) + "\n") {
      var v :| WellFormed(v) && (s == Render(v) || s == Render(v) + "\n");
      MatchRender(v);
    }
  }

  /** A well-formed version's text, with or without a trailing newline, matches with its own groups. */
  lemma MatchRender(v: Version)
    requires WellFormed(v)
    ensures Match(Render(v)) == Some(v)
    ensures Match(Render(v) + "\n") == Some(v)
  {
    MatchExactRender(v);
    var s := Render(v) + "\n";
    EndsInNewline(Render(v));
    if MatchExact(s).Some? {
      RenderMatchExact(s);
      RenderHasNoNewline(MatchExact(s).value);
      assert false;
    }
    assert s[..|s| - 1] == Render(v);
  }

  lemma EndsInNewline(x: string)
    ensures !Avoids(x + "\n", {'\n'})
  {
    assert (x + "\n")[|x|] == '\n';
  }

  /** Whatever the recogniser returns is a well-formed version. */
  lemma MatchIsWellFormed(s: string)
    requires Match(s).Some?
    ensures WellFormed(Match(s).value)
  {
    if MatchExact(s).Some? {
      RenderMatchExact(s);
    } else {
      RenderMatchExact(s[..|s| - 1]);
    }
  }

  /** The empty string is not a version. */
  lemma MatchNonEmpty(s: string)
    requires ParseVersion(s).Ok?
    ensures |s| > 0
  {
  }

  // ----- parse_version and get_version_string -----

  /** `parse_version(s)` with no group: the decimal values of the three numeric fields, or the
      `ValueError` the source raises for a string outside the grammar. */
  function ParseVersion(s: string): (r: Result<Triple>)
    ensures r.Err? <==> Match(s).None?
    ensures r.Err? ==> r.error == InvalidVersion(s)
  {
    match Match(s)
    case None => Err(InvalidVersion(s))
    case Some(v) => Ok(TripleOf(v))
  }

  /** `parse_version(s, group)`. */
  function ParseVersionGroup(s: string, group: Option<Group>): (r: Result<Component>)
    ensures r.Err? <==> ParseVersion(s).Err?
    ensures group.None? && r.Ok? ==> r.value == Core(ParseVersion(s).value)
    // Each numeric group is the matching field of the default triple.
    ensures group == Some(MajorGroup) && r.Ok? ==> r.value == Number(ParseVersion(s).value.major)
    ensures group == Some(MinorGroup) && r.Ok? ==> r.value == Number(ParseVersion(s).value.minor)
    ensures group == Some(PatchGroup) && r.Ok? ==> r.value == Number(ParseVersion(s).value.patch)
    ensures group in {Some(PrereleaseGroup), Some(BuildGroup)} && r.Ok? ==> r.value.Label?
  {
    match Match(s)
    case None => Err(InvalidVersion(s))
    case Some(v) =>
      match group
      case None => Ok(Core(TripleOf(v)))
      case Some(MajorGroup) => Ok(Number(v.major))
      case Some(MinorGroup) => Ok(Number(v.minor))
      case Some(PatchGroup) => Ok(Number(v.patch))
      case Some(PrereleaseGroup) => Ok(Label(JoinIds(v.prerelease)))
      case Some(BuildGroup) => Ok(Label(JoinIds(v.build)))
  }

  function JoinIds(ids: Option<seq<string>>): Option<string> {
    if ids.Some? then Some(Join(ids.value, '.')) else None
  }

  /** The `prerelease` group of a version string (`parse_version(s, VersionGroup.PRERELEASE)`). */
  function PrereleaseOf(s: string): (r: Result<Option<string>>)
    ensures r.Err? <==> ParseVersion(s).Err?
    ensures r.Ok? ==> ParseVersionGroup(s, Some(PrereleaseGroup)) == Ok(Label(r.value))
  {
    match Match(s)
    case None => Err(InvalidVersion(s))
    case Some(v) => Ok(JoinIds(v.prerelease))
  }

  /** Every group of a well-formed version's text reads back the field it names: the numbers,
      and the pre-release and build identifiers joined by dots (absent when the version has none). */
  lemma ParseVersionGroupRender(v: Version)
    requires WellFormed(v)
    ensures ParseVersionGroup(Render(v), None) == Ok(Core(Triple(v.major, v.minor, v.patch)))
    ensures ParseVersionGroup(Render(v), Some(MajorGroup)) == Ok(Number(v.major))
    ensures ParseVersionGroup(Render(v), Some(MinorGroup)) == Ok(Number(v.minor))
    ensures ParseVersionGroup(Render(v), Some(PatchGroup)) == Ok(Number(v.patch))
    ensures ParseVersionGroup(Render(v), Some(PrereleaseGroup))
            == Ok(Label(if v.prerelease.Some? then Some(Join(v.prerelease.value, '.')) else None))
    ensures ParseVersionGroup(Render(v), Some(BuildGroup))
            == Ok(Label(if v.build.Some? then Some(Join(v.build.value, '.')) else None))
  {
    MatchRender(v);
    GroupsOfMatch(Render(v), v);
  }

  lemma GroupsOfMatch(s: string, v: Version)
    requires Match(s) == Some(v)
    ensures ParseVersionGroup(s, None) == Ok(Core(Triple(v.major, v.minor, v.patch)))
    ensures ParseVersionGroup(s, Some(MajorGroup)) == Ok(Number(v.major))
    ensures ParseVersionGroup(s, Some(MinorGroup)) == Ok(Number(v.minor))
    ensures ParseVersionGroup(s, Some(PatchGroup)) == Ok(Number(v.patch))
    ensures ParseVersionGroup(s, Some(PrereleaseGroup))
            == Ok(Label(if v.prerelease.Some? then Some(Join(v.prerelease.value, '.')) else None))
    ensures ParseVersionGroup(s, Some(BuildGroup))
            == Ok(Label(if v.build.Some? then Some(Join(v.build.value, '.')) else None))
  {
  }

  /** The text `M.m.p` is recognised as the clean version with those numbers. */
  lemma MatchCoreString(t: Triple)
    ensures Match(CoreString(t)) == Some(Clean(t))
    ensures ParseVersion(CoreString(t)) == Ok(t)
  {
    assert Render(Clean(t)) == CoreString(t);
    MatchRender(Clean(t));
  }

  /** The default result of `parse_version` does not depend on the prefix, pre-release or build. */
  lemma ParseVersionIgnoresDecorations(v: Version)
    requires WellFormed(v)
    ensures ParseVersion(Render(v)) == Ok(TripleOf(v))
    ensures ParseVersion(Render(v)) == ParseVersion(CoreString(TripleOf(v)))
  {
    MatchRender(v);
    MatchCoreString(TripleOf(v));
  }

  /** `get_version_string`: the version rendered as `M.m.p`, dropping the prefix, pre-release and
      build. The result is recognised as the clean version with the same numbers. */
  function GetVersionString(s: string): (r: Result<string>)
    ensures r.Err? <==> ParseVersion(s).Err?
    ensures r.Ok? ==> Match(r.value) == Some(Clean(ParseVersion(s).value))
  {
    match ParseVersion(s)
    case Err(e) => Err(e)
    case Ok(t) =>
      MatchCoreString(t);
      Ok(CoreString(t))
  }

  /** Normalising twice is normalising once. */
  lemma GetVersionStringIdempotent(s: string)
    requires GetVersionString(s).Ok?
    ensures GetVersionString(GetVersionString(s).value) == GetVersionString(s)
  {
    var t := ParseVersion(s).value;
    MatchCoreString(t);
  }

  // ----- version_bump -----

  /** Python's comparison of `(major, minor, patch)` tuples: lexicographic. */
  predicate Greater(a: Triple, b: Triple) {
    || a.major > b.major
    || (a.major == b.major && a.minor > b.minor)
    || (a.major == b.major && a.minor == b.minor && a.patch > b.patch)
  }

  /** The checks of `version_bump` on parsed tuples: major, then minor, then patch, each one
      asking only whether the newer field is larger. */
  function Classify(older: Triple, newer: Triple): (r: Option<Bump>)
    ensures r == Some(Major) <==> newer.major > older.major
    ensures r == Some(Minor) <==> newer.major <= older.major && newer.minor > older.minor
    ensures r == Some(Patch) <==> newer.major <= older.major && newer.minor <= older.minor && newer.patch > older.patch
    ensures r == None <==> newer.major <= older.major && newer.minor <= older.minor && newer.patch <= older.patch
  {
    if newer.major > older.major then Some(Major)
    else if newer.minor > older.minor then Some(Minor)
    else if newer.patch > older.patch then Some(Patch)
    else None
  }

  /** `version_bump(older, newer)`: parse both (older first), then classify. */
  function VersionBump(older: string, newer: string): (r: Result<Option<Bump>>)
    ensures r.Err? <==> ParseVersion(older).Err? || ParseVersion(newer).Err?
    ensures ParseVersion(older).Err? ==> r == Err(InvalidVersion(older))
    ensures r.Ok? ==> r.value == Classify(ParseVersion(older).value, ParseVersion(newer).value)
  {
    match ParseVersion(older)
    case Err(e) => Err(e)
    case Ok(o) =>
      match ParseVersion(newer)
      case Err(e) => Err(e)
      case Ok(n) => Ok(Classify(o, n))
  }

  /** A version compared with itself is no bump. */
  lemma VersionBumpSelf(v: string)
    requires ParseVersion(v).Ok?
    ensures VersionBump(v, v) == Ok(None)
  {
  }

  /** Every strictly greater tuple is reported as some bump ... */
  lemma GreaterIsDetected(older: Triple, newer: Triple)
    requires Greater(newer, older)
    ensures Classify(older, newer).Some?
  {
  }

  /** ... but not conversely: a smaller major with a larger minor still reads as "minor". */
  lemma DecreaseCanReadAsBump()
    ensures Classify(Triple(2, 0, 0), Triple(1, 5, 0)) == Some(Minor)
    ensures !Greater(Triple(1, 5, 0), Triple(2, 0, 0))
  {
  }

  // ----- bump_version -----

  /** The tuple a bump of `b` leads to. */
  function Next(t: Triple, b: Bump): (n: Triple)
    ensures Greater(n, t)
  {
    match b
    case Major => Triple(t.major + 1, 0, 0)
    case Minor => Triple(t.major, t.minor + 1, 0)
    case Patch => Triple(t.major, t.minor, t.patch + 1)
  }

  /** `bump_version(version, bump)`: for "major", "minor" or "patch" the next clean release; for
      any other value (None, "release", ...) the input text untouched. The input is parsed first,
      so an invalid input fails whatever `bump` is. */
  function BumpVersion(version: string, bump: Option<string>): (r: Result<string>)
    ensures r.Err? <==> ParseVersion(version).Err?
    ensures r.Ok? && bump.Some? && FromName(bump.value).Some? ==>
              Match(r.value) == Some(Clean(Next(ParseVersion(version).value, FromName(bump.value).value)))
    ensures r.Ok? && (bump.None? || FromName(bump.value).None?) ==> r.value == version
  {
    match ParseVersion(version)
    case Err(e) => Err(e)
    case Ok(t) =>
      var major := Decimal.Render(t.major);
      var minor := Decimal.Render(t.minor);
      if bump == Some("major") then
        NextTextMajor(t);
        Ok(Decimal.Render(t.major + 1) + ".0.0")
      else if bump == Some("minor") then
        NextTextMinor(t);
        Ok(major + "." + Decimal.Render(t.minor + 1) + ".0")
      else if bump == Some("patch") then
        NextTextPatch(t);
        Ok(major + "." + minor + "." + Decimal.Render(t.patch + 1))
      else Ok(version)
  }

  /** The f-strings of `bump_version` spell the next tuple as `M.m.p`. */
  lemma NextTextMajor(t: Triple)
    ensures Match(Decimal.Render(t.major + 1) + ".0.0") == Some(Clean(Next(t, Major)))
  {
    MajorText(t);
    MatchCoreString(Next(t, Major));
  }

  lemma NextTextMinor(t: Triple)
    ensures Match(Decimal.Render(t.major) + "." + Decimal.Render(t.minor + 1) + ".0")
            == Some(Clean(Next(t, Minor)))
  {
    MinorText(t);
    MatchCoreString(Next(t, Minor));
  }

  lemma NextTextPatch(t: Triple)
    ensures Match(Decimal.Render(t.major) + "." + Decimal.Render(t.minor) + "." + Decimal.Render(t.patch + 1))
            == Some(Clean(Next(t, Patch)))
  {
    PatchText(t);
    MatchCoreString(Next(t, Patch));
  }

  lemma MajorText(t: Triple)
    ensures Decimal.Render(t.major + 1) + ".0.0" == CoreString(Next(t, Major))
  {
    var n := Next(t, Major);
    var a := Decimal.Render(n.major);
    var z := Decimal.Render(0);
    assert z == "0";
    JoinThree(a, z, z);
    ZeroZero(a);
  }

  lemma MinorText(t: Triple)
    ensures Decimal.Render(t.major) + "." + Decimal.Render(t.minor + 1) + ".0" == CoreString(Next(t, Minor))
  {
    var n := Next(t, Minor);
    var a := Decimal.Render(n.major);
    var b := Decimal.Render(n.minor);
    var z := Decimal.Render(0);
    assert z == "0";
    JoinThree(a, b, z);
    TrailingZero(a + "." + b);
  }

  lemma PatchText(t: Triple)
    ensures Decimal.Render(t.major) + "." + Decimal.Render(t.minor) + "." + Decimal.Render(t.patch + 1)
            == CoreString(Next(t, Patch))
  {
    var n := Next(t, Patch);
    JoinThree(Decimal.Render(n.major), Decimal.Render(n.minor), Decimal.Render(n.patch));
  }

  lemma JoinThree(a: string, b: string, c: string)
    ensures Join([a, b, c], '.') == a + "." + b + "." + c
  {
    assert [a, b, c][1..] == [b, c];
    assert [b, c][1..] == [c];
    assert Join([b, c], '.') == b + "." + c;
    Assoc5(a, b, c);
  }

  lemma Assoc5(a: string, b: string, c: string)
    ensures a + ['.'] + (b + ['.'] + c) == a + "." + b + "." + c
  {
  }

  lemma ZeroZero(a: string)
    ensures a + "." + "0" + "." + "0" == a + ".0.0"
  {
  }

  lemma TrailingZero(a: string)
    ensures a + "." + "0" == a + ".0"
  {
  }

  /** Round trip: the bump that produced a version is the bump `version_bump` reports for it. */
  lemma BumpRoundTrip(v: string, b: Bump)
    requires ParseVersion(v).Ok?
    ensures BumpVersion(v, Some(Name(b))).Ok?
    ensures VersionBump(v, BumpVersion(v, Some(Name(b))).value) == Ok(Some(b))
  {
  }

  /** Two patch bumps add two to the patch number and keep major and minor. */
  lemma PatchTwice(v: string)
    requires ParseVersion(v).Ok?
    ensures BumpVersion(v, Some("patch")).Ok?
    ensures BumpVersion(BumpVersion(v, Some("patch")).value, Some("patch")).Ok?
    ensures var t := ParseVersion(v).value;
            ParseVersion(BumpVersion(BumpVersion(v, Some("patch")).value, Some("patch")).value)
              == Ok(Triple(t.major, t.minor, t.patch + 2))
  {
    var t := ParseVersion(v).value;
    assert FromName("patch") == Some(Patch);
    var w := BumpVersion(v, Some("patch")).value;
    assert ParseVersion(w) == Ok(Next(t, Patch));
    var u := BumpVersion(w, Some("patch")).value;
    assert ParseVersion(u) == Ok(Next(Next(t, Patch), Patch));
  }
}

=== FILE: submodules.dfy ===
/** `relsync/submodules.py`: the tag overrides (`parse_tag_overrides`) and the choice of the tag
    each submodule is checked out at (`apply_submodule_updates`, with `prompt` from utils.py). The
    shell commands, each with the directory it runs in, are the output; running them is not
    modelled. */
module Submodules {
  import opened Wrappers
  import opened Text
  import opened Dict
  import opened Charts
  import Decimal

  /** `parse_tag_overrides`: the file's map `|` the argument's map, both already parsed (a file or
      argument that is not JSON reads as `{}`). */
  function ParseTagOverrides(fromFile: Dict<string>, fromArg: Dict<string>): (r: Dict<string>)
    requires HasUniqueKeys(fromFile) && HasUniqueKeys(fromArg)
    ensures HasUniqueKeys(r)
    ensures forall k :: k in Keys(r) <==> k in Keys(fromFile) || k in Keys(fromArg)
    ensures forall k :: Get(r, k) == if k in Keys(fromArg) then Get(fromArg, k) else Get(fromFile, k)
  {
    MergeKeys(fromFile, fromArg);
    MergeGetAll(fromFile, fromArg);
    Merge(fromFile, fromArg)
  }

  /** `prompt(msg, default)` reading one line `input` (`None` at end of input, where `input()`
      raises `EOFError`): an empty answer becomes the default, and the answer is stripped. */
  function Prompt(input: Option<string>, default: Option<string>): (r: Result<string>)
    ensures input.None? <==> r == Err(EndOfInput)
    ensures input.Some? && input.value == "" && default.Some? ==> r == Ok(Strip(default.value))
    ensures input.Some? && input.value != "" ==> r == Ok(Strip(input.value))
  {
    match input
    case None => Err(EndOfInput)
    case Some(ans) =>
      var a := if ans == "" && default.Some? then default.value else ans;
      Ok(Strip(a))
  }

  /** What an answer selects. `Manual(i)` is the 0-based position in the recent tags. */
  datatype Choice = Suggested | Latest | Manual(index: nat) | Skip

  /** The answer tests of `apply_submodule_updates`, in order: `ans.lower() == "s"`, then
      `ans.lower() == "l"`, then a digit string naming a position `1..len(tags)`. Anything else
      skips the submodule. */
  function Choose(ans: string, tagCount: nat): (c: Choice)
    ensures c == Suggested <==> ans == "s" || ans == "S"
    ensures c == Latest <==> ans == "l" || ans == "L"
    ensures c.Manual? <==> Decimal.IsDigits(ans) && 1 <= Decimal.Value(ans) <= tagCount
    ensures c.Manual? ==> c.index == Decimal.Value(ans) - 1 && c.index < tagCount
  {
    if ans == "s" || ans == "S" then Suggested
    else if ans == "l" || ans == "L" then Latest
    else if Decimal.IsDigits(ans) && 1 <= Decimal.Value(ans) <= tagCount then Manual(Decimal.Value(ans) - 1)
    else Skip
  }

  /** The tag a choice checks out; `None` when the submodule is skipped. The tag itself may be
      Python's `None` (the status read from the parent chart has no suggested or latest tag). */
  function Target(c: Choice, u: Update): Option<Option<string>>
    requires c.Manual? ==> c.index < |u.recentTags|
  {
    match c
    case Suggested => Some(u.suggestedTag)
    case Latest => Some(u.latestTag)
    case Manual(i) => Some(Some(u.recentTags[i]))
    case Skip => None
  }

  /** A value interpolated into an f-string: `None` prints as "None". */
  function Show(tag: Option<string>): string {
    if tag.Some? then tag.value else "None"
  }

  /** A shell command handed to `run`, with its working directory: `cwd=dir`, or the current
      directory (the parent repository) for `None`. */
  datatype Command = Command(dir: Option<string>, text: string)

  /** `git checkout [-q] <tag>`, run inside the submodule's own directory. */
  function CheckoutCommand(path: string, tag: Option<string>, quiet: bool): Command {
    Command(Some(path), (if quiet then "git checkout -q " else "git checkout ") + Show(tag))
  }

  /** `git add <path>`, run in the parent repository. */
  function AddCommand(path: string): Command {
    Command(None, "git add " + path)
  }

  /** The commands run for one submodule given its answer: a checkout of the tag the answer
      selects, if any, inside the submodule, then `git add` of the submodule in the parent. */
  function SubmoduleCommands(u: Update, ans: string, quiet: bool): (cmds: seq<Command>)
    ensures var c := Choose(ans, |u.recentTags|);
            var add := Command(None, "git add " + u.path);
            var verb := if quiet then "git checkout -q " else "git checkout ";
            && (c == Suggested ==> cmds == [Command(Some(u.path), verb + Show(u.suggestedTag)), add])
            && (c == Latest ==> cmds == [Command(Some(u.path), verb + Show(u.latestTag)), add])
            && (c.Manual? ==> cmds == [Command(Some(u.path), verb + u.recentTags[c.index]), add])
            && (c == Skip ==> cmds == [add])
  {
    match Target(Choose(ans, |u.recentTags|), u)
    case Some(tag) => [CheckoutCommand(u.path, tag, quiet), AddCommand(u.path)]
    case None => [AddCommand(u.path)]
  }

  /** The answer for the next submodule: "s" under `yes`, otherwise `prompt` on the next typed line. */
  function NextAnswer(yes: bool, answers: seq<string>): Result<string> {
    if yes then Ok("s") else Prompt(if |answers| > 0 then Some(answers[0]) else None, Some("s"))
  }

  /** The typed lines left for the following submodules. */
  function Remaining(yes: bool, answers: seq<string>): seq<string> {
    if yes || |answers| == 0 then answers else answers[1..]
  }

  /** What a run of `apply_submodule_updates` did: the commands it issued, in order, and the error
      that stopped it, if any. */
  datatype Outcome = Outcome(issued: seq<Command>, stop: Option<Error>)

  /** `apply_submodule_updates(updates, yes, quiet)` with `answers` the lines typed at the prompts:
      the commands it issues, in order, each assumed to succeed. With `yes` no prompt is shown and
      no line is read; without it, running out of typed lines raises `EOFError` at the prompt of
      the next submodule, after the commands of the earlier ones have run. */
  function ApplySubmoduleUpdates(updates: Dict<Update>, yes: bool, quiet: bool, answers: seq<string>)
    : (r: Outcome)
    ensures r.stop.Some? <==> !yes && |answers| < |updates|
    ensures r.stop.Some? ==> r.stop.value == EndOfInput
    decreases |updates|
  {
    if |updates| == 0 then Outcome([], None)
    else
      match NextAnswer(yes, answers)
      case Err(e) => Outcome([], Some(e))
      case Ok(a) =>
        var rest := ApplySubmoduleUpdates(updates[1..], yes, quiet, Remaining(yes, answers));
        Outcome(SubmoduleCommands(updates[0].1, a, quiet) + rest.issued, rest.stop)
  }

  /** One step of the loop, once the submodule has its answer. */
  lemma ApplyStep(updates: Dict<Update>, yes: bool, quiet: bool, answers: seq<string>)
    requires |updates| > 0 && NextAnswer(yes, answers).Ok?
    ensures var rest := ApplySubmoduleUpdates(updates[1..], yes, quiet, Remaining(yes, answers));
            ApplySubmoduleUpdates(updates, yes, quiet, answers)
            == Outcome(SubmoduleCommands(updates[0].1, NextAnswer(yes, answers).value, quiet) + rest.issued,
                       rest.stop)
  {
  }

  // ----- Properties -----

  /** Reference definition: every submodule checked out at its suggested tag, then added. */
  function SuggestedCommands(updates: Dict<Update>, quiet: bool): seq<Command>
    decreases |updates|
  {
    if |updates| == 0 then []
    else [CheckoutCommand(updates[0].1.path, updates[0].1.suggestedTag, quiet), AddCommand(updates[0].1.path)]
         + SuggestedCommands(updates[1..], quiet)
  }

  /** The answer `prompt` returns for a typed line, with "s" as the default. */
  function Answer(line: string): string {
    Strip(if line == "" then "s" else line)
  }

  /** The commands of the submodules, one after the other. */
  function Flatten(groups: seq<seq<Command>>): seq<Command>
    decreases |groups|
  {
    if |groups| == 0 then [] else groups[0] + Flatten(groups[1..])
  }

  /** `[f(xs[0], ys[0]), f(xs[1], ys[1]), ...]` for the elements of `xs`. */
  function Pairwise<A, B, C>(xs: seq<A>, ys: seq<B>, f: (A, B) -> C): (zs: seq<C>)
    requires |ys| >= |xs|
    ensures |zs| == |xs|
    ensures forall i :: 0 <= i < |xs| ==> zs[i] == f(xs[i], ys[i])
  {
    seq(|xs|, i requires 0 <= i < |xs| => f(xs[i], ys[i]))
  }

  lemma PairwiseTail<A, B, C>(xs: seq<A>, ys: seq<B>, f: (A, B) -> C)
    requires |ys| >= |xs| > 0
    ensures Pairwise(xs, ys, f) == [f(xs[0], ys[0])] + Pairwise(xs[1..], ys[1..], f)
  {
    var zs := Pairwise(xs, ys, f);
    assert zs[1..] == Pairwise(xs[1..], ys[1..], f) by {
      forall k | 0 <= k < |xs| - 1
        ensures zs[1..][k] == Pairwise(xs[1..], ys[1..], f)[k]
      {
        assert xs[1..][k] == xs[k + 1];
        assert ys[1..][k] == ys[k + 1];
      }
    }
    assert zs == [zs[0]] + zs[1..];
  }

  /** The commands of each submodule, from the line typed at its own prompt. */
  function PerSubmodule(updates: Dict<Update>, quiet: bool, answers: seq<string>): seq<seq<Command>>
    requires |answers| >= |updates|
  {
    Pairwise(updates, answers, (e: (string, Update), line: string) => SubmoduleCommands(e.1, Answer(line), quiet))
  }

  /** Without `yes`, the i-th submodule is handled by the i-th typed line, each on its own: the
      commands are those of every submodule with its answer, in submodule order. */
  lemma {:induction false} AnsweredCommands(updates: Dict<Update>, quiet: bool, answers: seq<string>)
    requires |answers| >= |updates|
    ensures ApplySubmoduleUpdates(updates, false, quiet, answers)
            == Outcome(Flatten(PerSubmodule(updates, quiet, answers)), None)
    decreases |updates|
  {
    if |updates| > 0 {
      AnsweredCommands(updates[1..], quiet, answers[1..]);
      PerSubmoduleTail(updates, quiet, answers);
      assert NextAnswer(false, answers) == Ok(Answer(answers[0]));
      assert Remaining(false, answers) == answers[1..];
      ApplyStep(updates, false, quiet, answers);
    }
  }

  /** Without `yes`, when the typed lines run out before the last submodule, the run stops with
      `EOFError` at the first submodule left without a line, after issuing the commands of every
      earlier submodule for its own answer. */
  lemma {:induction false} EndOfInputStops(updates: Dict<Update>, quiet: bool, answers: seq<string>)
    requires |answers| < |updates|
    ensures ApplySubmoduleUpdates(updates, false, quiet, answers)
            == Outcome(Flatten(PerSubmodule(updates[..|answers|], quiet, answers)), Some(EndOfInput))
    decreases |answers|
  {
    if |answers| == 0 {
      NoAnswerStops(updates, quiet, answers);
    } else {
      EndOfInputStops(updates[1..], quiet, answers[1..]);
      AnsweredStep(updates, quiet, answers);
      PrefixTail(updates, quiet, answers);
    }
  }

  lemma NoAnswerStops(updates: Dict<Update>, quiet: bool, answers: seq<string>)
    requires |answers| == 0 < |updates|
    ensures ApplySubmoduleUpdates(updates, false, quiet, answers) == Outcome([], Some(EndOfInput))
    ensures Flatten(PerSubmodule(updates[..0], quiet, answers)) == []
  {
    assert NextAnswer(false, answers) == Err(EndOfInput);
    assert PerSubmodule(updates[..0], quiet, answers) == [];
  }

  /** `ApplyStep` for a typed line. */
  lemma AnsweredStep(updates: Dict<Update>, quiet: bool, answers: seq<string>)
    requires 0 < |answers| && 0 < |updates|
    ensures var rest := ApplySubmoduleUpdates(updates[1..], false, quiet, answers[1..]);
            ApplySubmoduleUpdates(updates, false, quiet, answers)
            == Outcome(SubmoduleCommands(updates[0].1, Answer(answers[0]), quiet) + rest.issued, rest.stop)
  {
    assert NextAnswer(false, answers) == Ok(Answer(answers[0]));
    assert Remaining(false, answers) == answers[1..];
    ApplyStep(updates, false, quiet, answers);
  }

  /** `PerSubmoduleTail` on the answered prefix of the submodules. */
  lemma PrefixTail(updates: Dict<Update>, quiet: bool, answers: seq<string>)
    requires 0 < |answers| < |updates|
    ensures Flatten(PerSubmodule(updates[..|answers|], quiet, answers))
            == SubmoduleCommands(updates[0].1, Answer(answers[0]), quiet)
               + Flatten(PerSubmodule(updates[1..][..|answers| - 1], quiet, answers[1..]))
  {
    assert updates[1..][..|answers| - 1] == updates[..|answers|][1..];
    PerSubmoduleTail(updates[..|answers|], quiet, answers);
  }

  lemma PerSubmoduleTail(updates: Dict<Update>, quiet: bool, answers: seq<string>)
    requires |answers| >= |updates| > 0
    ensures Flatten(PerSubmodule(updates, quiet, answers))
            == SubmoduleCommands(updates[0].1, Answer(answers[0]), quiet)
               + Flatten(PerSubmodule(updates[1..], quiet, answers[1..]))
  {
    var f := (e: (string, Update), line: string) => SubmoduleCommands(e.1, Answer(line), quiet);
    PairwiseTail(updates, answers, f);
    var groups := PerSubmodule(updates, quiet, answers);
    assert groups[1..] == PerSubmodule(updates[1..], quiet, answers[1..]);
  }

  /** With `yes`, every submodule goes to its suggested tag, whatever would have been typed. */
  lemma {:induction false} YesChoosesSuggested(updates: Dict<Update>, quiet: bool, answers: seq<string>)
    ensures ApplySubmoduleUpdates(updates, true, quiet, answers) == Outcome(SuggestedCommands(updates, quiet), None)
    decreases |updates|
  {
    if |updates| > 0 {
      YesChoosesSuggested(updates[1..], quiet, answers);
    }
  }

  /** The directories of the submodules being updated. */
  function Paths(updates: Dict<Update>): set<string> {
    set i | 0 <= i < |updates| :: updates[i].1.path
  }

  /** Every command runs where `apply_submodule_updates` runs it: a checkout inside one of `paths`,
      a `git add` in the parent repository. */
  predicate RunsWhere(cmds: seq<Command>, paths: set<string>) {
    forall c :: c in cmds ==>
      && (c.dir.None? <==> StartsWith(c.text, "git add "))
      && (c.dir.Some? ==> StartsWith(c.text, "git checkout ") && c.dir.value in paths)
  }

  /** Where each command of a run executes: every checkout inside one of the submodules, every
      `git add` in the parent repository. */
  lemma {:induction false} CommandsRunWhere(updates: Dict<Update>, yes: bool, quiet: bool, answers: seq<string>)
    ensures RunsWhere(ApplySubmoduleUpdates(updates, yes, quiet, answers).issued, Paths(updates))
    decreases |updates|
  {
    if |updates| > 0 && NextAnswer(yes, answers).Ok? {
      var rest := ApplySubmoduleUpdates(updates[1..], yes, quiet, Remaining(yes, answers)).issued;
      CommandsRunWhere(updates[1..], yes, quiet, Remaining(yes, answers));
      ApplyStep(updates, yes, quiet, answers);
      var own := SubmoduleCommands(updates[0].1, NextAnswer(yes, answers).value, quiet);
      SubmoduleRunsWhere(updates[0].1, NextAnswer(yes, answers).value, quiet);
      PathsCons(updates);
      RunsWhereConcat(own, rest, {updates[0].1.path}, Paths(updates[1..]), Paths(updates));
    }
  }

  lemma SubmoduleRunsWhere(u: Update, ans: string, quiet: bool)
    ensures RunsWhere(SubmoduleCommands(u, ans, quiet), {u.path})
  {
    var add := AddCommand(u.path).text;
    assert add[..8] == "git add ";
    assert add[4] == 'a';
    match Target(Choose(ans, |u.recentTags|), u)
    case Some(tag) =>
      var checkout := CheckoutCommand(u.path, tag, quiet).text;
      assert checkout[..13] == "git checkout ";
      assert checkout[4] == 'c';
    case None =>
  }

  lemma PathsCons(updates: Dict<Update>)
    requires |updates| > 0
    ensures Paths(updates) == {updates[0].1.path} + Paths(updates[1..])
  {
    forall p | p in Paths(updates[1..]) ensures p in Paths(updates) {
      var i :| 0 <= i < |updates[1..]| && updates[1..][i].1.path == p;
      assert updates[i + 1].1.path == p;
    }
    forall p | p in Paths(updates) ensures p == updates[0].1.path || p in Paths(updates[1..]) {
      var i :| 0 <= i < |updates| && updates[i].1.path == p;
      if i > 0 {
        assert updates[1..][i - 1].1.path == p;
      }
    }
  }

  lemma RunsWhereConcat(a: seq<Command>, b: seq<Command>, pa: set<string>, pb: set<string>, paths: set<string>)
    requires RunsWhere(a, pa) && RunsWhere(b, pb) && pa + pb <= paths
    ensures RunsWhere(a + b, paths)
  {
  }

  /** Turns a checkout command into its quiet form, in the same directory; other commands stay as
      they are. */
  function Quieten(cmd: Command): Command {
    if StartsWith(cmd.text, "git checkout ") then Command(cmd.dir, "git checkout -q " + cmd.text[13..]) else cmd
  }

  predicate QuietForm(loud: seq<Command>, quiet: seq<Command>) {
    |loud| == |quiet| && forall i :: 0 <= i < |loud| ==> quiet[i] == Quieten(loud[i])
  }

  /** `quiet` changes only the `-q` flag of the checkouts: the same submodules are checked out at
      the same tags, and the same answers stop the run the same way. */
  lemma {:induction false} QuietOnlyFlag(updates: Dict<Update>, yes: bool, answers: seq<string>)
    ensures ApplySubmoduleUpdates(updates, yes, true, answers).stop
            == ApplySubmoduleUpdates(updates, yes, false, answers).stop
    ensures QuietForm(ApplySubmoduleUpdates(updates, yes, false, answers).issued,
                      ApplySubmoduleUpdates(updates, yes, true, answers).issued)
    decreases |updates|
  {
    if |updates| > 0 && NextAnswer(yes, answers).Ok? {
      var remaining := Remaining(yes, answers);
      QuietOnlyFlag(updates[1..], yes, remaining);
      var a := NextAnswer(yes, answers).value;
      ApplyStep(updates, yes, false, answers);
      ApplyStep(updates, yes, true, answers);
      QuietCommands(updates[0].1, a);
      QuietConcat(SubmoduleCommands(updates[0].1, a, false), SubmoduleCommands(updates[0].1, a, true),
                  ApplySubmoduleUpdates(updates[1..], yes, false, remaining).issued,
                  ApplySubmoduleUpdates(updates[1..], yes, true, remaining).issued);
    }
  }

  lemma QuietConcat(loud1: seq<Command>, quiet1: seq<Command>, loud2: seq<Command>, quiet2: seq<Command>)
    requires QuietForm(loud1, quiet1) && QuietForm(loud2, quiet2)
    ensures QuietForm(loud1 + loud2, quiet1 + quiet2)
  {
  }

  lemma QuietCommands(u: Update, ans: string)
    ensures QuietForm(SubmoduleCommands(u, ans, false), SubmoduleCommands(u, ans, true))
  {
    var add := AddCommand(u.path).text;
    assert !StartsWith(add, "git checkout ") by {
      assert add[4] == 'a';
    }
    match Target(Choose(ans, |u.recentTags|), u)
    case Some(tag) =>
      var loud := CheckoutCommand(u.path, tag, false).text;
      assert loud[..13] == "git checkout ";
      assert loud[13..] == Show(tag);
    case None =>
  }

  /** An empty answer takes the suggested tag. */
  lemma EmptyAnswerIsSuggested(tagCount: nat)
    ensures Prompt(Some(""), Some("s")) == Ok("s")
    ensures Choose("s", tagCount) == Suggested
  {
    StripUntouched("s");
  }

  /** A whitespace-only answer is not empty, so it is not replaced by the default; it strips to
      the empty string, which skips the submodule. */
  lemma BlankAnswerSkips(blank: string, tagCount: nat)
    requires blank != "" && AllSpace(blank)
    ensures Prompt(Some(blank), Some("s")) == Ok("")
    ensures Choose("", tagCount) == Skip
  {
  }

  /** A typed position `n` selects `tags[n - 1]` exactly when `1 <= n <= len(tags)`. */
  lemma ManualIndex(n: nat, u: Update)
    ensures var c := Choose(Decimal.Render(n), |u.recentTags|);
            && (1 <= n <= |u.recentTags| ==> Target(c, u) == Some(Some(u.recentTags[n - 1])))
            && (n == 0 || n > |u.recentTags| ==> c == Skip)
  {
    Decimal.ValueOfRender(n);
    var s := Decimal.Render(n);
    assert Decimal.IsDigit(s[0]);
  }
}

=== FILE: text.dfy ===
/** Python string operations used by the release helper: `strip`, `split`, `join`, `splitlines`, `in`. */
module Text {

  /** The characters Python's `str.isspace()` accepts; they drive `strip()` and `split()`. */
  predicate IsSpace(c: char) {
    || c == ' '
    || '\t' <= c <= '\r'
    || '\U{1C}' <= c <= '\U{1F}'
    || c == '\U{85}' || c == '\U{A0}' || c == '\U{1680}'
    || '\U{2000}' <= c <= '\U{200A}'
    || c == '\U{2028}' || c == '\U{2029}' || c == '\U{202F}' || c == '\U{205F}' || c == '\U{3000}'
  }

  /** The line boundaries of Python's `str.splitlines()` (`"\r\n"` counts as one). */
  const LineBreaks: set<char> := {
    '\n', '\r', '\U{0B}', '\U{0C}', '\U{1C}', '\U{1D}', '\U{1E}', '\U{85}', '\U{2028}', '\U{2029}'
  }

  /** No character of `s` is in `cs`. */
  predicate Avoids(s: string, cs: set<char>) {
    forall j :: 0 <= j < |s| ==> s[j] !in cs
  }

  predicate AllSpace(s: string) {
    forall j :: 0 <= j < |s| ==> IsSpace(s[j])
  }

  predicate NoSpace(s: string) {
    forall j :: 0 <= j < |s| ==> !IsSpace(s[j])
  }

  predicate StartsWith(s: string, prefix: string) {
    |prefix| <= |s| && s[..|prefix|] == prefix
  }

  predicate EndsWith(s: string, suffix: string) {
    |suffix| <= |s| && s[|s| - |suffix|..] == suffix
  }

  /** Python `needle in haystack` for strings. */
  predicate IsSubstring(needle: string, haystack: string)
    decreases |haystack|
  {
    StartsWith(haystack, needle) || (|haystack| > 0 && IsSubstring(needle, haystack[1..]))
  }

  /** The length of the leading whitespace run of `s`. */
  function LeadCount(s: string): (i: nat)
    ensures i <= |s|
    ensures forall j :: 0 <= j < i ==> IsSpace(s[j])
    ensures i < |s| ==> !IsSpace(s[i])
    decreases |s|
  {
    if |s| > 0 && IsSpace(s[0]) then 1 + LeadCount(s[1..]) else 0
  }

  /** The start of the trailing whitespace run of `s`. */
  function TrailStart(s: string): (j: nat)
    ensures j <= |s|
    ensures forall k :: j <= k < |s| ==> IsSpace(s[k])
    ensures j > 0 ==> !IsSpace(s[j - 1])
    decreases |s|
  {
    if |s| > 0 && IsSpace(s[|s| - 1]) then TrailStart(s[..|s| - 1]) else |s|
  }

  /** The index of the first character of `s` in `cs`, or `|s|` when there is none. */
  function Find(s: string, cs: set<char>): (i: nat)
    ensures i <= |s|
    ensures i < |s| ==> s[i] in cs
    ensures forall j :: 0 <= j < i ==> s[j] !in cs
    decreases |s|
  {
    if |s| == 0 then 0
    else if s[0] in cs then 0
    else 1 + Find(s[1..], cs)
  }

  lemma {:induction false} FindAfter(a: string, b: string, cs: set<char>)
    requires Avoids(a, cs)
    ensures Find(a + b, cs) == |a| + Find(b, cs)
    decreases |a|
  {
    if |a| == 0 {
      assert a + b == b;
    } else {
      assert (a + b)[0] == a[0];
      assert (a + b)[1..] == a[1..] + b;
      FindAfter(a[1..], b, cs);
    }
  }

  lemma FindAbsent(s: string, cs: set<char>)
    requires Avoids(s, cs)
    ensures Find(s, cs) == |s|
  {
    FindAfter(s, [], cs);
    assert s + [] == s;
  }

  /** Python `s.split(sep)` for a one-character separator. */
  function Split(s: string, sep: char): (parts: seq<string>)
    ensures |parts| > 0
    ensures forall p :: p in parts ==> Avoids(p, {sep})
    decreases |s|
  {
    var i := Find(s, {sep});
    if i == |s| then
      assert s[..i] == s;
      [s]
    else
      [s[..i]] + Split(s[i + 1..], sep)
  }

  /** Python `sep.join(parts)` for a one-character separator. */
  function Join(parts: seq<string>, sep: char): string
    decreases |parts|
  {
    if |parts| == 0 then ""
    else if |parts| == 1 then parts[0]
    else parts[0] + [sep] + Join(parts[1..], sep)
  }

  /** `sep.join(s.split(sep)) == s`. */
  lemma {:induction false} JoinSplit(s: string, sep: char)
    ensures Join(Split(s, sep), sep) == s
    decreases |s|
  {
    var i := Find(s, {sep});
    if i == |s| {
      assert s[..i] == s;
    } else {
      JoinSplit(s[i + 1..], sep);
      assert s == s[..i] + [sep] + s[i + 1..];
    }
  }

  /** `sep.join(parts).split(sep) == parts` when no part contains the separator. */
  lemma {:induction false} SplitJoin(parts: seq<string>, sep: char)
    requires |parts| > 0
    requires forall p :: p in parts ==> Avoids(p, {sep})
    ensures Split(Join(parts, sep), sep) == parts
    decreases |parts|
  {
    var s := Join(parts, sep);
    if |parts| == 1 {
      FindAbsent(parts[0], {sep});
      assert s[..|s|] == s;
    } else {
      var tail := Join(parts[1..], sep);
      assert s == parts[0] + ([sep] + tail);
      assert parts[0] in parts;
      SplitCons(parts[0], sep, tail);
      assert forall p :: p in parts[1..] ==> p in parts;
      SplitJoin(parts[1..], sep);
      assert [parts[0]] + parts[1..] == parts;
    }
  }

  /** Splitting `a + sep + b`, where `a` has no separator, yields `a` followed by the parts of `b`. */
  lemma SplitCons(a: string, sep: char, b: string)
    requires Avoids(a, {sep})
    ensures Split(a + ([sep] + b), sep) == [a] + Split(b, sep)
  {
    FindAfter(a, [sep] + b, {sep});
    SliceAround(a, sep, b);
  }

  lemma SliceAround(a: string, sep: char, b: string)
    ensures (a + ([sep] + b))[..|a|] == a
    ensures (a + ([sep] + b))[|a| + 1..] == b
  {
  }

  lemma {:induction false} JoinAvoids(parts: seq<string>, sep: char, cs: set<char>)
    requires sep !in cs
    requires forall p :: p in parts ==> Avoids(p, cs)
    ensures Avoids(Join(parts, sep), cs)
    decreases |parts|
  {
    if |parts| > 1 {
      assert forall p :: p in parts[1..] ==> p in parts;
      JoinAvoids(parts[1..], sep, cs);
      assert parts[0] in parts;
    }
  }

  /** Python `s.strip()`: the slice of `s` between its leading and its trailing whitespace runs. */
  function Strip(s: string): (r: string)
    ensures |r| > 0 ==> !IsSpace(r[0]) && !IsSpace(r[|r| - 1])
    ensures LeadCount(s) + |r| <= |s| && r == s[LeadCount(s)..LeadCount(s) + |r|]
    ensures forall j :: LeadCount(s) + |r| <= j < |s| ==> IsSpace(s[j])
    ensures r == "" <==> AllSpace(s)
  {
    var i := LeadCount(s);
    if i == |s| then ""
    else
      var j := TrailStart(s);
      assert !IsSpace(s[i]);
      s[i..j]
  }

  /** A string with no whitespace at either end is its own `strip()`. */
  lemma StripUntouched(s: string)
    requires |s| > 0 ==> !IsSpace(s[0]) && !IsSpace(s[|s| - 1])
    ensures Strip(s) == s
  {
    if |s| > 0 {
      assert LeadCount(s) == 0;
      assert !AllSpace(s);
    }
  }

  /** Python `line.split(None, 1)`: the first whitespace-delimited word and, when anything
      follows the whitespace run after it, the untouched remainder of the line. */
  function SplitOnce(line: string): (parts: seq<string>)
    ensures |parts| <= 2
    ensures forall p :: p in parts ==> |p| > 0 && !IsSpace(p[0])
    ensures |parts| > 0 ==> NoSpace(parts[0])
    ensures |parts| == 0 <==> AllSpace(line)
    ensures PlacedAt(line, LeadCount(line), parts)
  {
    var i := LeadCount(line);
    if i == |line| then
      assert AllSpace(line);
      []
    else
      var w := WordEnd(line, i);
      var k := GapEnd(line, w);
      var parts := if k == |line| then [line[i..w]] else [line[i..w], line[k..]];
      PartsPlaced(line, i, w, k, parts);
      parts
  }

  /** Where the parts of a `split(None, 1)` of `line` sit when the first word starts at `i`: the
      word runs up to the next whitespace or the end; only whitespace follows a lone word;
      otherwise the remainder is the end of the line, trailing whitespace included, after a
      non-empty whitespace run that follows the word. */
  predicate PlacedAt(line: string, i: nat, parts: seq<string>) {
    && (|parts| > 0 ==>
          && i + |parts[0]| <= |line| && line[i..i + |parts[0]|] == parts[0]
          && (i + |parts[0]| == |line| || IsSpace(line[i + |parts[0]|])))
    && (|parts| == 1 ==> AllSpace(line[i + |parts[0]|..]))
    && (|parts| == 2 ==>
          var w := i + |parts[0]|;
          && w < |line| - |parts[1]| && EndsWith(line, parts[1])
          && AllSpace(line[w..|line| - |parts[1]|]))
  }

  /** The placement of the parts of `SplitOnce`, over plain indices. */
  lemma PartsPlaced(line: string, i: nat, w: nat, k: nat, parts: seq<string>)
    requires i < w <= k <= |line|
    requires forall j :: i <= j < w ==> !IsSpace(line[j])
    requires w < |line| ==> IsSpace(line[w])
    requires forall j :: w <= j < k ==> IsSpace(line[j])
    requires k < |line| ==> !IsSpace(line[k])
    requires k == |line| ==> |parts| == 1 && parts[0] == line[i..w]
    requires k < |line| ==> |parts| == 2 && parts[0] == line[i..w] && parts[1] == line[k..]
    ensures PlacedAt(line, i, parts)
  {
    if |parts| == 1 {
      forall j | 0 <= j < |line[w..]|
        ensures IsSpace(line[w..][j])
      {
        assert line[w..][j] == line[w + j];
      }
    } else {
      assert w < k;
      var g := line[w..|line| - |parts[1]|];
      forall j | 0 <= j < |g|
        ensures IsSpace(g[j])
      {
        assert g[j] == line[w + j];
      }
    }
  }

  /** The end of the run of non-whitespace characters of `s` that starts at `i`. */
  function WordEnd(s: string, i: nat): (w: nat)
    requires i <= |s|
    ensures i <= w <= |s|
    ensures forall j :: i <= j < w ==> !IsSpace(s[j])
    ensures w < |s| ==> IsSpace(s[w])
    decreases |s| - i
  {
    if i == |s| || IsSpace(s[i]) then i else WordEnd(s, i + 1)
  }

  /** The end of the run of whitespace characters of `s` that starts at `i`. */
  function GapEnd(s: string, i: nat): (k: nat)
    requires i <= |s|
    ensures i <= k <= |s|
    ensures forall j :: i <= j < k ==> IsSpace(s[j])
    ensures k < |s| ==> !IsSpace(s[k])
    decreases |s| - i
  {
    if i == |s| || !IsSpace(s[i]) then i else GapEnd(s, i + 1)
  }

  /** Python `s.splitlines()`. */
  function SplitLines(s: string): (lines: seq<string>)
    ensures forall l :: l in lines ==> Avoids(l, LineBreaks)
    ensures s == "" <==> lines == []
    decreases |s|
  {
    if |s| == 0 then []
    else
      var i := Find(s, LineBreaks);
      if i == |s| then
        assert s[..i] == s;
        [s]
      else if s[i] == '\r' && i + 1 < |s| && s[i + 1] == '\n' then
        [s[..i]] + SplitLines(s[i + 2..])
      else
        [s[..i]] + SplitLines(s[i + 1..])
  }

  /** A line break-free line followed by a newline is read back as that line. */
  lemma {:induction false} SplitLinesCons(line: string, rest: string)
    requires Avoids(line, LineBreaks)
    ensures SplitLines(line + "\n" + rest) == [line] + SplitLines(rest)
  {
    var s := line + "\n" + rest;
    assert s == line + ("\n" + rest);
    FindAfter(line, "\n" + rest, LineBreaks);
    assert s[..|line|] == line;
    assert s[|line| + 1..] == rest;
  }
}

=== FILE: wrappers.dfy ===
/** Optional values, results, and the failures the release helper can raise. */
module Wrappers {

  /** A value that may be absent (Python's `None`). */
  datatype Option<+T> = None | Some(value: T) {
    function GetOr(default: T): T {
      match this
      case Some(v) => v
      case None => default
    }
  }

  /** The failures of the modelled core. Python raises or exits; the model returns them. */
  datatype Error =
    | InvalidVersion(text: string)      // semver.py: `ValueError("Invalid SemVer: ...")`
    | NotAVersionString(key: string)    // `None` (an absent chart `version`) reaches the recogniser
    | MissingKey(key: string)           // `chart["version"]` on a chart without that key
    | ChartNotFound                     // the parent chart file does not exist (exit 1)
    | MissingChartPath(name: string)    // `os.path.join(path, None)` for a submodule without a chart path
    | EndOfInput                        // `input()` reached end of file

  /** A computation that either yields a value or fails with an `Error`. */
  datatype Result<+T> = Ok(value: T) | Err(error: Error)

  /** Python truthiness of an optional string: present and non-empty. */
  predicate Truthy(o: Option<string>) {
    o.Some? && o.value != ""
  }

  /** Python `a or b` for optional strings: one of the two operands, truthy exactly when one of
      them is, and the left one whenever it is truthy. */
  function Or(a: Option<string>, b: Option<string>): (r: Option<string>)
    ensures r == a || r == b
    ensures Truthy(r) <==> Truthy(a) || Truthy(b)
    ensures Truthy(a) ==> r == a
    ensures !Truthy(a) ==> r == b
  {
    if Truthy(a) then a else b
  }
}
